=== FILE: README.md ===
# Haleon Deals — a verified model of the bidding core

Haleon Deals is a bidding portal for surplus product lots. Signed-in buyers
browse the lots by category and place bids: a quantity at a unit price. The
discount a bid implies may not exceed the lot's maximum. An administrator
imports the catalogue from a spreadsheet, attaches images, and approves or
rejects pending bids. A buyer sees and cancels their own bids. Two store
triggers e-mail the bidder when a bid's status changes or a bid is deleted.

This Dafny project models that core:

- `records.dfy`: the product and bid documents. A bid's discount is a
  percentage, or minus infinity when the lot's regular price is 0.
- `store.dfy`: the document store, as a class holding the `products` and
  `bids` collections in insertion order with distinct ids. It provides the
  operations the pages use: add, update one field, delete, clear, and the
  lookups and filters those operations are specified by.
- `bidding.dfy`: the guards of the bid-submit handler, the discount formula
  and the bid record written on success.
- `product_list.dfy`: the product list page's state, and the submit handler
  as a method on it.
- `catalog.dfy`: sorting by category, the distinct sorted category headings,
  and the per-category sections of the product list and the dashboard.
- `admin_dashboard.dfy`: the dashboard's state, the replace-all import, image
  attachment, approve/reject, and the controls a bid row shows.
- `my_bids.dfy`: the owner-filtered bid list, cancel and revise, and the
  badge and buttons on a bid card.
- `notifications.dfy`: the two mail triggers, as pure decisions from
  snapshots to at most one mail.
- `layout.dfy`: the category list of the Products dropdown, the navigation
  entries and the back-button rule.
- `navigation.dfy`: parsing a dropdown link back into a path and a category,
  the click effect, and the dropdown's open state.
- `routes.dfy`: the route table with the private and admin guards.
- `strings.dfy`, `seqs.dfy`, `wrappers.dfy`: the JavaScript built-ins the
  core relies on, written out and proved:
  - `split`, `replace` with a string pattern, `toUpperCase` on the first letter;
  - default `sort`, a stable sort by key, and `[...new Set(...)]`.

Outcomes from outside the program are parameters of the operations that
depend on them:

- whether a store write, read or delete succeeded;
- the ids the store assigns;
- the upload's download URL;
- the clock;
- whether a mail was accepted.

The code departs from the intended business rules in a few places, and the model follows the code:

- A lot with regular price 0 is not refused, although a lot without a positive regular price is meant to be invalid. The discount is
  `(0 − price) / 0 · 100`, which is minus infinity, never above the maximum,
  so any positive price is admitted (`Bidding.ZeroRegularPriceAdmitsAnyPrice`).
- Approve/Reject do not check that the bid is still pending, although only
  pending bids are meant to be decided. Only the buttons, shown for pending
  bids alone, restrict them.
- Placing a bid does not reduce the lot's available quantity, and no close-of-bid date is checked.

Some consequences of the code that the proofs make explicit:

- A category containing `#` is cut at the `#` when the dropdown link is
  parsed back (`Navigation.HashCutsCategory`).
- A product with an empty category gets a heading on the product pages but no
  dropdown entry (`Layout.EmptyCategoryHasNoDropdownEntry`).
- For a status that is neither pending nor decided, the dashboard's badge is
  red and the My Bids badge yellow (`MyBidsPage.BadgeColoursOfTwoPages`).

## Model

| member | source | states |
|---|---|---|
| `Bidding.DiscountPercent` | src/pages/ProductList.tsx:82 | The discount is minus infinity exactly when the regular price is 0; otherwise discount × regular = (regular − price) × 100. |
| `Bidding.Check` | src/pages/ProductList.tsx:66-86 | The guards refuse in source order. A missing user is refused as not signed in, and only then. A signed-in user with a quantity or price not above 0 is refused as invalid. Otherwise a quantity above the available one is refused as exceeding it. Otherwise the bid is refused on the discount iff the discount test fails. An admitted bid has a positive quantity within the available one, a positive price, the computed discount, and that discount not above the maximum. |
| `Bidding.NewBid` | src/pages/ProductList.tsx:89-102 | The record is pending and carries the user's id and e-mail, the assigned id, the timestamp, the submitted price and quantity, their product as total and the discount it is given. It always copies the lot's id, description, regular price and image. It is admissible for the lot iff the quantity is available and the discount test passes. |
| `Bidding.DiscountTestCrossMultiplied` | src/pages/ProductList.tsx:82-86 | "Discount not above the maximum" equals the division-free test on (regular − price)·100 against max·regular, with the sign of the regular price taken into account. |
| `Bidding.CheckAdmitsIff` | src/pages/ProductList.tsx:66-86 | A bid is admitted iff a user is signed in, quantity > 0, price > 0, quantity ≤ available, and the discount is within the maximum. A discount equal to the maximum is admitted. |
| `Bidding.NewBidInvariant` | src/pages/ProductList.tsx:89-102 | The bid written after the checks pass is pending and carries the user's id and e-mail, the assigned id and timestamp. It holds the submitted price and quantity, the total price × quantity, and the discount computed from the lot's regular price. It holds the lot's id, description, regular price and image, and was admissible for that lot. |
| `Bidding.WorkedExamples` | src/pages/ProductList.tsx:66-99 | On a lot at 100 with 50 available and a 20% maximum: 10 at 85 is admitted with 15% and total 850; 10 at 80 with exactly 20%; 10 at 70 is refused on discount; 60 at 90 on quantity; no user on sign-in. |
| `Bidding.ZeroRegularPriceAdmitsAnyPrice` | src/pages/ProductList.tsx:82-86 | With regular price 0 every positive price for an available quantity is admitted, with discount minus infinity. |
| `ProductListPage.ProductList.constructor` | src/pages/ProductList.tsx:28-32 | The page starts loading, with no products, no selection, and quantity and price 0. |
| `ProductListPage.ProductList.FetchProducts` | src/pages/ProductList.tsx:36-60 | On success the list is the store's products sorted by category; on failure it is kept. Loading ends either way and the dialog state is untouched. |
| `ProductListPage.ProductList.SelectProduct` | src/pages/ProductList.tsx:202 | "Place Bid" selects the product and changes nothing else. |
| `ProductListPage.ProductList.CloseDialog` | src/pages/ProductList.tsx:261 | "Cancel" clears the selection and keeps the typed quantity and price. |
| `ProductListPage.ProductList.EnterBid` | src/pages/ProductList.tsx:235-245 | The inputs set the bid quantity and price and nothing else. |
| `ProductListPage.ProductList.HandleBidSubmit` | src/pages/ProductList.tsx:66-127 | The outcome follows the guards in source order. Each refusal and a failed write leave the store and the dialog unchanged. On success exactly the new pending bid is appended, the products (available quantities included) are unchanged, and the dialog resets to no selection, price 0 and quantity 0. |
| `Catalog.SortByCategory` | src/pages/AdminDashboard.tsx:62 | The sorted products are ordered by category and are a permutation of the fetched ones. |
| `Catalog.Categories` | src/pages/AdminDashboard.tsx:165 | The category headings are strictly increasing, hence duplicate-free. |
| `Catalog.CategoriesSpec` | src/pages/ProductList.tsx:130 | A string is a heading iff some product has that category. |
| `Catalog.InCategory` | src/pages/AdminDashboard.tsx:213-214 | A section is no longer than the products and every product in it has that category. |
| `Catalog.SectionsKeepFetchOrder` | src/pages/ProductList.tsx:45 | Sorting by category leaves every category section in fetch order: the section of the sorted list equals the section of the fetched list. |
| `Catalog.HeadingsIgnoreOrder` | src/pages/ProductList.tsx:45 | The category headings do not depend on the products' order, so the headings of the sorted list are those of the fetched list. |
| `Catalog.InCategoryMembers` | src/pages/ProductList.tsx:168-169 | A section holds exactly the products of its category. |
| `Catalog.SectionsPartitionProducts` | src/pages/AdminDashboard.tsx:209-215 | Concatenated over the headings, the sections are a permutation of the products: every product appears in exactly one section. |
| `Store.FindBid` | src/pages/MyBids.tsx:56 | The lookup finds a document iff one has the id, and what it finds is a stored document with that id. |
| `Store.WithStatus` | src/pages/AdminDashboard.tsx:139 | Same length. Each bid with the id gets the new status with all its other fields kept; every other bid is unchanged. |
| `Store.WithoutBid` | src/pages/MyBids.tsx:58 | The filtered list is no longer than the original and holds no bid with the id. |
| `Store.WithoutBidMembers` | src/pages/MyBids.tsx:58 | A bid survives the filter iff it was in the list and has a different id. |
| `Store.WithoutBidAt` | src/pages/MyBids.tsx:58 | With distinct ids, removing the id of position k gives the list without that position, the others in their order. |
| `Store.WithImage` | src/pages/AdminDashboard.tsx:124-126 | Same length. Only the product with the id gets the new image URL; all its other fields and all other products are unchanged. |
| `Store.Database.AddBid` | src/pages/ProductList.tsx:89 | Adding a bid with a fresh id appends it, leaves products unchanged, and keeps ids distinct. |
| `Store.Database.UpdateBidStatus` | src/pages/AdminDashboard.tsx:139 | The update fails, changing nothing, when the bid does not exist. Otherwise only that bid's status changes, and the trigger's change pairs the old bid with it. |
| `Store.Database.DeleteBid` | src/pages/MyBids.tsx:56 | The delete removes the bid with the id, if any, and returns the deleted snapshot for the trigger. |
| `Store.Database.ClearProducts` | src/pages/AdminDashboard.tsx:83-88 | The batch delete empties the product collection and leaves bids alone. |
| `Store.Database.AddProduct` | src/pages/AdminDashboard.tsx:93-105 | Adding a product with a fresh id appends it and leaves bids alone. |
| `Store.Database.SetProductImage` | src/pages/AdminDashboard.tsx:124-126 | The update succeeds iff the product exists, and then sets only its image URL. |
| `Notifications.OnBidStatusChange` | functions/src/index.ts:48-90 | A mail is produced iff the status changed. It goes from the fixed sender to the after-snapshot's e-mail and shows the after-snapshot. |
| `Notifications.SubjectByNewStatus` | functions/src/index.ts:59-83 | On a change to approved: approval subject and congratulations. To rejected: "Update on Your Haleon Deals Bid" and not-accepted. To anything else: empty subject and empty message. |
| `Notifications.OnBidCancelled` | functions/src/index.ts:92-106 | Every delete yields one mail from the fixed sender to the deleted bid's e-mail, with the cancellation subject and message. |
| `Notifications.Deliver` | functions/src/index.ts:85-89 | Without a mail nothing is sent. With one, it is sent, or the failure is logged and not raised. |
| `Notifications.Attempts` | functions/src/index.ts:108-112 | Each event makes at most one send attempt. A delivery holds at most one mail, and only a delivery holding a mail counts as an attempt. |
| `Notifications.RepeatedDecisionIsSilent` | functions/src/index.ts:55-57 | Re-writing a bid's current status mails nobody; a real change makes exactly one attempt, to the bidder. |
| `AdminDashboardPage.DecisionStatus` | src/pages/AdminDashboard.tsx:137 | The dashboard only ever writes approved or rejected, never pending. |
| `AdminDashboardPage.AdminControls` | src/pages/AdminDashboard.tsx:287-311 | A pending row shows exactly Approve then Reject. Any other row shows one badge with the capitalized status: green iff approved, red otherwise. Approve and Reject appear iff the bid is pending. |
| `AdminDashboardPage.ImportedRowsRoundTrip` | src/pages/AdminDashboard.tsx:91-105 | The imported table has one product per row, in row order. Each carries exactly its row's fields, its own distinct id, and no image. |
| `AdminDashboardPage.ControlsOnlyForPending` | src/pages/AdminDashboard.tsx:303-311 | A bid that is not pending shows only a badge: "Approved" in green or "Rejected" in red for a decided bid. |
| `AdminDashboardPage.DecidedBidOffersNoAction` | src/pages/AdminDashboard.tsx:287-302 | After either decision the row offers no button. |
| `AdminDashboardPage.DecisionMailsBidder` | src/pages/AdminDashboard.tsx:137-139 | Deciding a pending bid triggers one mail to its bidder with the subject of that decision. |
| `AdminDashboardPage.AdminDashboard.constructor` | src/pages/AdminDashboard.tsx:40-43 | The dashboard starts on the products tab, empty and loading. |
| `AdminDashboardPage.AdminDashboard.FetchData` | src/pages/AdminDashboard.tsx:49-70 | On success the products are the store's sorted by category and the bids are the store's; on failure both lists are kept. Loading ends either way. |
| `AdminDashboardPage.AdminDashboard.SelectTab` | src/pages/AdminDashboard.tsx:172-182 | The tab buttons switch the tab and nothing else. |
| `AdminDashboardPage.AdminDashboard.HandleFileUpload` | src/pages/AdminDashboard.tsx:72-113 | No file does nothing; a failed clear keeps the products. After a clear, the table holds exactly the products of the rows added before the first failed add, so a complete import holds one product per row and no earlier product. Stored bids are never touched. A complete import refreshes both page lists (kept if the refresh read fails) and ends loading; any other outcome leaves the page lists and loading as they were. The tab never changes. |
| `AdminDashboardPage.AdminDashboard.HandleImageUpload` | src/pages/AdminDashboard.tsx:116-135 | A failed upload changes nothing. Otherwise only that product's image URL changes; the write fails if the product is gone. Stored bids keep their snapshots. On success both page lists are refreshed and loading ends; on failure the page lists and loading are kept. The tab never changes. |
| `AdminDashboardPage.AdminDashboard.HandleBidAction` | src/pages/AdminDashboard.tsx:137-145 | Only the status of the one targeted bid changes, to approved or rejected; every other bid, every other field and all products are unchanged. The trigger receives the before/after pair. On success both page lists are refreshed and loading ends; otherwise the page lists and loading are kept. The tab never changes. |
| `MyBidsPage.OwnedByMembers` | src/pages/MyBids.tsx:32-35 | The owner query returns exactly the bids whose user id is the user's. |
| `MyBidsPage.OwnedBy` | src/pages/MyBids.tsx:32-35 | The query result is no longer than the collection and every bid in it belongs to the user. |
| `MyBidsPage.OwnedByDistinct` | src/pages/MyBids.tsx:32-41 | The user's bids keep the store's distinct ids. |
| `MyBidsPage.CardActions` | src/pages/MyBids.tsx:137-152 | A pending bid offers exactly Revise then Cancel; any other bid offers nothing. |
| `MyBidsPage.BadgeColour` | src/pages/MyBids.tsx:127-133 | Approved is green, rejected is red, and any other status, pending included, is yellow. |
| `MyBidsPage.BadgeColoursOfTwoPages` | src/pages/MyBids.tsx:127-133 | For a non-pending status, the card badge has the colour of the dashboard's badge iff the status is approved or rejected. For any other status the dashboard's badge is red and the card's yellow. |
| `MyBidsPage.MyBids.constructor` | src/pages/MyBids.tsx:23-25 | The page starts loading with no bids. |
| `MyBidsPage.MyBids.FetchBids` | src/pages/MyBids.tsx:27-52 | With no user nothing is fetched and nothing changes. On success the list is the user's own bids. A failure keeps the list. Loading ends once a user is present. The list only holds the loaded user's bids, with distinct ids. |
| `MyBidsPage.MyBids.CancelBid` | src/pages/MyBids.tsx:54-62 | After a successful delete, store and list both lose exactly the bids with that id, the others keeping their order; a card at position k is removed from exactly that position. The trigger gets the deleted snapshot. A failed delete changes nothing. |
| `MyBidsPage.MyBids.ReviseBid` | src/pages/MyBids.tsx:64-68 | Revise changes no state and reports the "coming soon" error. |
| `MyBidsPage.CancelMailsOwner` | functions/src/index.ts:92-106 | Cancelling a bid shown on the page deletes that user's bid. One cancellation mail goes to its owner's e-mail. |
| `Layout.TruthyMembers` | src/components/Layout.tsx:23 | Dropping falsy values keeps exactly the present, non-empty categories. |
| `Layout.ExtractCategories` | src/components/Layout.tsx:20-25 | The dropdown categories are strictly increasing (sorted, duplicate-free) and contain no empty string. |
| `Layout.ExtractCategoriesSpec` | src/components/Layout.tsx:21-23 | The dropdown categories are exactly the non-empty category fields. |
| `Layout.DropdownMatchesHeadings` | src/components/Layout.tsx:20-25 | When no product has an empty category, the dropdown lists exactly the headings of the product list, in the same order. |
| `Layout.DropdownMatchesPageHeadings` | src/components/Layout.tsx:20-25 | The same holds for the sorted list the product pages hold, whose headings are those of the fetched list. |
| `Layout.EmptyCategoryHasNoDropdownEntry` | src/components/Layout.tsx:23 | An empty category is a heading on the pages but never a dropdown entry. |
| `Layout.LoadedCategories` | src/components/Layout.tsx:14-29 | A failed fetch leaves the categories empty. Either way they are strictly increasing and never empty strings. |
| `Layout.NavItems` | src/components/Layout.tsx:35-49 | Three entries, or four for an administrator with /admin last; the first has a dropdown with one item per category. |
| `Layout.NavItemsSpec` | src/components/Layout.tsx:35-49 | The entries are Products, My Bids and Profile, in that order, with distinct links. An entry leads to /admin iff the user is an administrator. Only Products has a dropdown: one item per category, labelled c and linking to "/products#category-" + c. |
| `Layout.BackButtonOnNavTargets` | src/components/Layout.tsx:13 | The back button is hidden on "/" and shown on every page the navigation leads to. |
| `Navigation.ParseHref` | src/components/Navigation.tsx:26-27 | The path is a prefix of the link holding no '#'. There is a category part iff the link contains '#'; without one the path is the whole link. |
| `Navigation.ParseLink` | src/components/Navigation.tsx:26-27 | A link made of a '#'-free path and fragment parses into that path and the fragment with its first "category-" removed. |
| `Navigation.ParsePlainFragment` | src/components/Navigation.tsx:27 | A fragment without "category-" is kept whole as the category. |
| `Navigation.CategoryHrefRoundTrip` | src/components/Navigation.tsx:26-27 | For a category without '#', parsing the layout's link gives back "/products" and exactly that category. |
| `Navigation.SecondHashDropsRest` | src/components/Navigation.tsx:26-27 | Only the first two `#`-separated fields are read: whatever follows a second `#` is dropped, and the category is the second field without its first "category-". |
| `Navigation.HashCutsCategory` | src/components/Navigation.tsx:26-27 | A category holding `#` comes back cut at its first `#`. |
| `Navigation.HashInCategoryIsCut` | src/components/Navigation.tsx:26-27 | For the category "a#b" the round trip yields "a". |
| `Navigation.DropdownClickEffect` | src/components/Navigation.tsx:29-40 | The click scrolls iff the current path is the link's path and the link has a non-empty category, and then to "category-" plus that category. Otherwise it navigates to the link's path. The scroll target is "category-" plus the category, or "category-undefined" for a link without '#'. |
| `Navigation.ClickOnCategoryEntry` | src/components/Navigation.tsx:29-40 | A click on a category entry scrolls to that section when /products is shown. Otherwise it navigates to /products with that section as the scroll target. |
| `Navigation.AtMostOneActive` | src/components/Navigation.tsx:49 | An entry is active iff the path equals its link, so at most one layout entry is active. |
| `Navigation.OnlyProductsMenu` | src/components/Navigation.tsx:77 | A menu shows only while open and only for Products, and then exactly when there is at least one category. |
| `Navigation.NavigationBar.constructor` | src/components/Navigation.tsx:23 | The dropdown starts closed. |
| `Navigation.NavigationBar.HandleDropdownClick` | src/components/Navigation.tsx:25-43 | The click performs the parsed effect, and the router moves only when it navigates. Afterwards the dropdown is closed. |
| `Navigation.NavigationBar.ToggleDropdown` | src/components/Navigation.tsx:70 | The chevron negates the open state. |
| `Navigation.NavigationBar.CloseDropdown` | src/components/Navigation.tsx:82 | The overlay closes the dropdown. |
| `Routes.AdminPageGuarded` | src/routes/index.tsx:20-25 | /admin renders iff the user is signed in and an administrator. No user goes to /login; a non-administrator goes to "/". |
| `Routes.AdminRoute` | src/routes/index.tsx:20-25 | The admin guard is the private guard applied to the children for an administrator and to a redirect home otherwise. |
| `Routes.Resolve` | src/routes/index.tsx:29-51 | A path matches nothing iff it is neither public nor under the layout. A page inside the layout renders only for a signed-in user, and the admin page only for a signed-in administrator. |
| `Routes.VisitorsSeeOnlyPublicPages` | src/routes/index.tsx:29-51 | Signed out, a path renders iff it is one of the five public pages. Those render the same for everyone. A page inside the layout renders only for a signed-in user. |
| `Routes.RedirectsLand` | src/routes/index.tsx:15-25 | Every guard's redirect leads to a page that renders for that user. |
| `Routes.NavEntriesRender` | src/routes/index.tsx:36-50 | For a signed-in user every navigation entry leads to a page rendered inside the layout. |
| `Strings.JoinSplit` | src/components/Navigation.tsx:26 | Splitting loses nothing: joining the parts with the separator gives back the string, and no part contains the separator. |
| `Strings.Split` | src/components/Navigation.tsx:26 | `split` returns at least one part, and exactly one iff the string holds no separator. |
| `Strings.SplitJoin` | src/components/Navigation.tsx:26 | Splitting the join of separator-free parts gives back those parts. |
| `Strings.ReplaceFirstAt` | src/components/Navigation.tsx:27 | `replace` with a string pattern splices the replacement in at the first occurrence only. |
| `Strings.ReplaceFirst` | src/components/Navigation.tsx:27 | `replace` either leaves the string alone or replaces exactly one occurrence: the length changes by the replacement's minus the pattern's. |
| `Strings.ReplaceFirstAbsent` | src/components/Navigation.tsx:27 | With no occurrence of the pattern the string is unchanged. |
| `Strings.CapitalizeInverse` | src/pages/AdminDashboard.tsx:309 | Capitalizing touches only the first character, and for a lower-case word lower-casing that character restores it. |
| `Strings.Capitalize` | src/pages/MyBids.tsx:134 | Capitalizing keeps the length and every character after the first. A lower-case first letter becomes the upper-case letter that lower-cases back to it; any other first character is kept. |
| `Seqs.SortBySpec` | src/pages/ProductList.tsx:45 | The sort by key returns a sequence ordered by that key that is a permutation of its input. |
| `Seqs.SortBy` | src/pages/ProductList.tsx:45 | The sort neither loses nor adds an element: its result is a permutation of the input. |
| `Seqs.SortByStable` | src/pages/ProductList.tsx:45 | The sort is stable: for every key, the elements carrying it come out in their input order. |
| `Seqs.InsertWithKey` | src/pages/ProductList.tsx:45 | Inserting an element puts it ahead of every element with its key and leaves the others' order. |
| `Seqs.Dedupe` | src/components/Layout.tsx:20-25 | Every kept value comes from the input and every input value is kept. |
| `Seqs.DedupeSpec` | src/pages/ProductList.tsx:130 | The Set conversion keeps each value once: duplicate-free, with the same members. |

## Left out

- Firestore, Storage, Auth and the mail transport are outside the program. The store is a pair of sequences, and each call's success is a parameter.
  - Id generation is a parameter, with the precondition that the id is fresh.
  - The store's collections keep insertion order; Firestore returns documents ordered by id. The pages only use that order before sorting, or in the bid lists.
- Concurrency is not modelled: concurrent bidders, concurrent admin decisions, triggers racing with page reloads. Every operation is one sequential step.
- `Catalog.SortByCategory`, `Seqs.SortBySpec`: `localeCompare` and the default `sort` compare by locale collation and UTF-16 code units. The model uses one lexicographic order on code points for both, and proves the orderings against it, not against a locale.
- `Strings.Capitalize`, `Strings.CapitalizeInverse`: `toUpperCase` is modelled for the ASCII letters only.
- `Navigation.NavigationBar.HandleDropdownClick`: the router's new location is the parsed path as written. The router would resolve an empty or relative path against the current location. Only the absolute links the layout builds reach the dropdown.
- The spreadsheet read and `parseFloat`/`parseInt` are library calls. An import row arrives already typed, so NaN prices and quantities are not represented.
- Bid quantities and prices are exact reals; floating-point rounding of the discount and total is not modelled. An empty input reads as 0 and is refused by the `<= 0` guard, which the model captures. NaN can only come from the spreadsheet's `parseFloat`/`parseInt`, which are outside the model.
- E-mail HTML, currency and date formatting, toasts, spinners, scrolling on the page (the category select, the 100 ms delayed scroll after navigation), and whether the scroll target element exists are rendering details and are left out.
- The `createdAt` timestamp comes from the clock and is a parameter.
- `ProductListPage.ProductList.HandleBidSubmit`: the write's success is a free parameter. The bid copies the lot's `imageUrl`, which is undefined for every imported lot. Unless the store is configured to ignore undefined fields, such a write would be rejected and take the "Failed to submit bid" path. The store configuration (`src/lib/firebase.ts`) is not part of this model, so the model assumes the write can succeed and records a missing image as none.
- `AdminDashboardPage.AdminDashboard.HandleFileUpload`: the product deletes of the batch and the row adds are awaited calls. The model takes the outcome of the batch and the number of adds that succeed as parameters, not the individual failures inside the batch.
- Route matching in the router library (case-insensitive paths, trailing slashes, the index route) is reduced to exact path comparison.
- The session's `isAdmin` rule (a profile exists and its flag is true) is a boolean input to the guards.
- The My Bids badge text uses the same capitalization as the dashboard badge, whose text is what `AdminDashboardPage.ControlsOnlyForPending` states.
- The login, profile, dashboard and setup pages are forms and are not part of this model.

=== FILE: admin_dashboard.dfy ===
/**
 * The admin dashboard: the product import that replaces the whole catalogue,
 * attaching an image to a product, and approving or rejecting bids, with the
 * controls each bid row offers.
 */
module AdminDashboardPage {
  import opened Wrappers
  import opened Records
  import opened Strings
  import opened Seqs
  import opened Catalog
  import opened Store
  import opened Notifications

  datatype Decision = Approve | Reject

  /** The status `handleBidAction` writes for each button. */
  function DecisionStatus(d: Decision): (s: string)
    ensures s == Approved || s == Rejected
    ensures s != Pending
  {
    match d
    case Approve => Approved
    case Reject => Rejected
  }

  datatype Tab = ProductsTab | BidsTab

  /** One spreadsheet row after its cells are read as text and numbers. */
  datatype ImportRow = ImportRow(
    category: string,
    brand: string,
    upc: string,
    description: string,
    regularPrice: real,
    expiryDate: string,
    caseQuantity: int,
    closeBidDate: string,
    quantityAvailable: int,
    lotNumber: string,
    maxDiscount: real)

  /** The product document `addDoc` writes for a row, under the id the store assigns; it has no image. */
  function RowProduct(row: ImportRow, id: string): Product
  {
    Product(id, row.category, row.brand, row.upc, row.description, row.regularPrice, row.expiryDate,
            row.caseQuantity, row.closeBidDate, row.quantityAvailable, row.lotNumber, row.maxDiscount, None)
  }

  /** The row a product document was written from. */
  function ProductRow(p: Product): ImportRow
  {
    ImportRow(p.category, p.brand, p.upc, p.description, p.regularPrice, p.expiryDate,
              p.caseQuantity, p.closeBidDate, p.quantityAvailable, p.lotNumber, p.maxDiscount)
  }

  /** The products written for `rows`, in row order. */
  function Imported(rows: seq<ImportRow>, ids: seq<string>): seq<Product>
    requires |ids| == |rows|
  {
    seq(|rows|, k requires 0 <= k < |rows| => RowProduct(rows[k], ids[k]))
  }

  /**
   * An import keeps every row: the table has one product per row, in row
   * order, each carrying exactly that row's fields, its own id and no image.
   */
  lemma ImportedRowsRoundTrip(rows: seq<ImportRow>, ids: seq<string>)
    requires |ids| == |rows| && Distinct(ids)
    ensures |Imported(rows, ids)| == |rows|
    ensures forall k :: 0 <= k < |rows| ==> ProductRow(Imported(rows, ids)[k]) == rows[k]
    ensures forall k :: 0 <= k < |rows| ==> Imported(rows, ids)[k].id == ids[k] && Imported(rows, ids)[k].imageUrl.None?
    ensures ProductIdsDistinct(Imported(rows, ids))
  {
  }

  datatype Control = ApproveButton | RejectButton | StatusBadge(text: string, colour: Colour)

  /** What a bid row offers: the two buttons for a pending bid, otherwise a badge with the capitalized status. */
  function AdminControls(status: string): (controls: seq<Control>)
    ensures controls != []
    ensures ApproveButton in controls <==> status == Pending
    ensures RejectButton in controls <==> status == Pending
    ensures status == Pending ==> controls == [ApproveButton, RejectButton]
    ensures status != Pending ==>
      && |controls| == 1
      && controls[0].StatusBadge?
      && controls[0].text == Capitalize(status)
      && (controls[0].colour == Green <==> status == Approved)
      && (controls[0].colour == Red <==> status != Approved)
  {
    if status == Pending then [ApproveButton, RejectButton]
    else [StatusBadge(Capitalize(status), if status == Approved then Green else Red)]
  }

  /**
   * A bid that is not pending shows only its badge, which reads "Approved" in
   * green or "Rejected" in red for a decided bid.
   */
  lemma ControlsOnlyForPending(status: string)
    ensures status != Pending ==> |AdminControls(status)| == 1 && AdminControls(status)[0].StatusBadge?
    ensures status == Approved ==> AdminControls(status) == [StatusBadge("Approved", Green)]
    ensures status == Rejected ==> AdminControls(status) == [StatusBadge("Rejected", Red)]
  {
    if status == Approved {
      assert UpperChar('a') == 'A';
      assert Capitalize(status) == ['A'] + status[1..] == "Approved";
    } else if status == Rejected {
      assert UpperChar('r') == 'R';
      assert Capitalize(status) == ['R'] + status[1..] == "Rejected";
    }
  }

  /** Through the dashboard a bid is decided at most once: after either decision no button is offered. */
  lemma DecidedBidOffersNoAction(d: Decision)
    ensures ApproveButton !in AdminControls(DecisionStatus(d))
    ensures RejectButton !in AdminControls(DecisionStatus(d))
  {
  }

  /** Deciding a pending bid mails its bidder once, with the subject of that decision. */
  lemma DecisionMailsBidder(b: Bid, d: Decision)
    requires b.status == Pending
    ensures var mail := OnBidStatusChange(b, b.(status := DecisionStatus(d)));
      && mail.Some?
      && mail.value.to == b.userEmail
      && mail.value.subject == (if d == Approve then ApprovedSubject else RejectedSubject)
  {
  }

  datatype ImportOutcome = NoFile | ImportFailed | ImportDone

  class AdminDashboard {
    const db: Database
    var activeTab: Tab
    var products: seq<Product>
    var bids: seq<Bid>
    var loading: bool

    ghost predicate Valid()
      reads this, db
    {
      db.Valid()
    }

    constructor (db: Database)
      requires db.Valid()
      ensures Valid() && this.db == db
      ensures activeTab == ProductsTab && products == [] && bids == [] && loading
    {
      this.db := db;
      activeTab := ProductsTab;
      products := [];
      bids := [];
      loading := true;
    }

    /** Reads both collections; products sorted by category. A failed read keeps both lists. Loading ends either way. */
    method FetchData(readOk: bool)
      modifies this
      ensures products == if readOk then SortByCategory(db.products) else old(products)
      ensures bids == if readOk then db.bids else old(bids)
      ensures !loading && activeTab == old(activeTab)
    {
      if readOk {
        products := SortByCategory(db.products);
        bids := db.bids;
      }
      loading := false;
    }

    method SelectTab(t: Tab)
      modifies this
      ensures activeTab == t
      ensures products == old(products) && bids == old(bids) && loading == old(loading)
    {
      activeTab := t;
    }

    /**
     * "Import Products". With no file nothing happens. Otherwise every product
     * is deleted in one batch (`clearOk` says whether that succeeded) and then
     * one product is added per row, in order, with the ids the store assigns;
     * the first `addsOk` additions succeed and the next one fails, which stops
     * the import. Bids are never touched.
     */
    method HandleFileUpload(file: Option<seq<ImportRow>>, ids: seq<string>, clearOk: bool, addsOk: nat, refreshOk: bool)
      returns (outcome: ImportOutcome)
      requires Valid()
      requires file.Some? ==> |ids| == |file.value| && Distinct(ids)
      modifies this, db
      ensures Valid()
      ensures db.bids == old(db.bids)
      ensures outcome == NoFile <==> file.None?
      ensures outcome == ImportDone <==> file.Some? && clearOk && addsOk >= |file.value|
      ensures file.None? || !clearOk ==> db.products == old(db.products)
      ensures file.Some? && clearOk ==>
        var n := if addsOk < |file.value| then addsOk else |file.value|;
        db.products == Imported(file.value[..n], ids[..n])
      ensures outcome == ImportDone ==> db.products == Imported(file.value, ids)
      ensures activeTab == old(activeTab)
      ensures outcome == ImportDone ==>
        && products == (if refreshOk then SortByCategory(db.products) else old(products))
        && bids == (if refreshOk then db.bids else old(bids))
        && !loading
      ensures outcome != ImportDone ==> products == old(products) && bids == old(bids) && loading == old(loading)
    {
      if file.None? {
        return NoFile;
      }
      var rows := file.value;
      if !clearOk {
        return ImportFailed;
      }
      db.ClearProducts();
      var i := 0;
      while i < |rows|
        invariant 0 <= i <= |rows| && i <= addsOk
        invariant db.Valid()
        invariant db.products == Imported(rows[..i], ids[..i])
        invariant db.bids == old(db.bids)
        invariant products == old(products) && bids == old(bids)
        invariant loading == old(loading) && activeTab == old(activeTab)
      {
        if i == addsOk {
          return ImportFailed;
        }
        assert !HasProduct(db.products, ids[i]) by {
          forall k | 0 <= k < i
            ensures db.products[k].id != ids[i]
          {
            assert db.products[k].id == ids[k];
          }
        }
        db.AddProduct(RowProduct(rows[i], ids[i]));
        i := i + 1;
        assert db.products == Imported(rows[..i], ids[..i]);
      }
      assert rows[..i] == rows && ids[..i] == ids;
      FetchData(refreshOk);
      outcome := ImportDone;
    }

    /**
     * "Upload Image" on a product: `uploaded` is the download URL, or none when
     * the upload failed. Only that product's `imageUrl` changes; the update
     * fails when the product no longer exists. Bid snapshots keep their image.
     */
    method HandleImageUpload(productId: string, uploaded: Option<string>, refreshOk: bool) returns (ok: bool)
      requires Valid()
      modifies this, db
      ensures Valid()
      ensures ok <==> uploaded.Some? && HasProduct(old(db.products), productId)
      ensures db.products == if uploaded.Some? then WithImage(old(db.products), productId, uploaded.value) else old(db.products)
      ensures db.bids == old(db.bids)
      ensures activeTab == old(activeTab)
      ensures ok ==>
        && products == (if refreshOk then SortByCategory(db.products) else old(products))
        && bids == (if refreshOk then db.bids else old(bids))
        && !loading
      ensures !ok ==> products == old(products) && bids == old(bids) && loading == old(loading)
    {
      if uploaded.None? {
        return false;
      }
      ok := db.SetProductImage(productId, uploaded.value);
      if ok {
        FetchData(refreshOk);
      }
    }

    /**
     * "Approve" or "Reject" on a bid: writes only that bid's `status`. The
     * handler itself does not look at the current status; the buttons are
     * what restricts it to pending bids. `change` is what the update trigger
     * receives; the write fails, changing nothing, for a bid that no longer exists.
     */
    method HandleBidAction(bidId: string, d: Decision, writeOk: bool, refreshOk: bool) returns (change: Option<Change>)
      requires Valid()
      modifies this, db
      ensures Valid()
      ensures db.products == old(db.products)
      ensures db.bids == if writeOk then WithStatus(old(db.bids), bidId, DecisionStatus(d)) else old(db.bids)
      ensures change.Some? <==> writeOk && HasBid(old(db.bids), bidId)
      ensures change.Some? ==>
        change.value.before == FindBid(old(db.bids), bidId).value &&
        change.value.after == change.value.before.(status := DecisionStatus(d))
      ensures activeTab == old(activeTab)
      ensures change.Some? ==>
        && products == (if refreshOk then SortByCategory(db.products) else old(products))
        && bids == (if refreshOk then db.bids else old(bids))
        && !loading
      ensures change.None? ==> products == old(products) && bids == old(bids) && loading == old(loading)
    {
      if !writeOk {
        return None;
      }
      change := db.UpdateBidStatus(bidId, DecisionStatus(d));
      if change.Some? {
        FetchData(refreshOk);
      }
    }
  }
}

=== FILE: bidding.dfy ===
/**
 * Whether a bid may be placed, and the bid document that is written when it
 * may: the chain of early returns at the start of the product list's submit
 * handler, the discount it computes, and the record it adds to `bids`.
 */
module Bidding {
  import opened Wrappers
  import opened Records

  /** Why a submission stops before anything is written; each shows its own error message. */
  datatype Rejection =
    | NotSignedIn             // "Please login to place a bid"
    | InvalidQuantityOrPrice  // "Please enter valid quantity and price"
    | ExceedsAvailable        // "Bid quantity exceeds available quantity"
    | ExceedsMaxDiscount      // "Bid exceeds maximum available discount of ...%"

  datatype Verdict = Admit(discount: Discount) | Refuse(reason: Rejection)

  /** `((regularPrice - bidPrice) / regularPrice) * 100`, for the positive prices that reach it. */
  function DiscountPercent(regularPrice: real, bidPrice: real): (d: Discount)
    requires bidPrice > 0.0
    ensures d.MinusInfinity? <==> regularPrice == 0.0
    ensures d.Percent? ==> d.value * regularPrice == (regularPrice - bidPrice) * 100.0
  {
    if regularPrice == 0.0 then MinusInfinity
    else
      var v := (regularPrice - bidPrice) / regularPrice * 100.0;
      assert v * regularPrice == (regularPrice - bidPrice) * 100.0 by {
        assert (regularPrice - bidPrice) / regularPrice * regularPrice == regularPrice - bidPrice;
      }
      Percent(v)
  }

  /** `discountPercent > product.maxDiscount`; minus infinity is below every maximum. */
  predicate ExceedsMax(d: Discount, maxDiscount: real)
  {
    d.Percent? && d.value > maxDiscount
  }

  /** The guards of the submit handler, in the order it tests them. */
  function Check(user: Option<User>, product: Product, quantity: real, price: real): (v: Verdict)
    ensures v == Refuse(NotSignedIn) <==> user.None?
    ensures user.Some? && (quantity <= 0.0 || price <= 0.0) ==> v == Refuse(InvalidQuantityOrPrice)
    ensures user.Some? && quantity > 0.0 && price > 0.0 && quantity > product.quantityAvailable as real ==>
      v == Refuse(ExceedsAvailable)
    ensures user.Some? && 0.0 < quantity <= product.quantityAvailable as real && price > 0.0 ==>
      (v == Refuse(ExceedsMaxDiscount) <==> !WithinMaxDiscount(product.regularPrice, price, product.maxDiscount))
    ensures v.Admit? ==>
      && 0.0 < quantity <= product.quantityAvailable as real
      && price > 0.0
      && v.discount == DiscountPercent(product.regularPrice, price)
      && !ExceedsMax(v.discount, product.maxDiscount)
  {
    if user.None? then Refuse(NotSignedIn)
    else if quantity <= 0.0 || price <= 0.0 then Refuse(InvalidQuantityOrPrice)
    else if quantity > product.quantityAvailable as real then Refuse(ExceedsAvailable)
    else
      var d := DiscountPercent(product.regularPrice, price);
      DiscountTestCrossMultiplied(product.regularPrice, price, product.maxDiscount);
      if ExceedsMax(d, product.maxDiscount) then Refuse(ExceedsMaxDiscount) else Admit(d)
  }

  /** The discount test without division: the price is at most `maxDiscount` percent below the regular price. */
  predicate WithinMaxDiscount(regularPrice: real, price: real, maxDiscount: real)
  {
    if regularPrice > 0.0 then (regularPrice - price) * 100.0 <= maxDiscount * regularPrice
    else if regularPrice < 0.0 then (regularPrice - price) * 100.0 >= maxDiscount * regularPrice
    else true
  }

  /** The division-based test of the source and the cross-multiplied one agree. */
  lemma DiscountTestCrossMultiplied(regularPrice: real, price: real, maxDiscount: real)
    requires price > 0.0
    ensures !ExceedsMax(DiscountPercent(regularPrice, price), maxDiscount) <==> WithinMaxDiscount(regularPrice, price, maxDiscount)
  {
    var d := DiscountPercent(regularPrice, price);
    if regularPrice > 0.0 {
      assert d.value <= maxDiscount <==> d.value * regularPrice <= maxDiscount * regularPrice;
    } else if regularPrice < 0.0 {
      assert d.value <= maxDiscount <==> d.value * regularPrice >= maxDiscount * regularPrice;
    }
  }

  /**
   * A bid is admitted exactly when someone is signed in, quantity and price are
   * positive, the quantity is available and the discount is within the maximum
   * (a discount equal to the maximum is admitted).
   */
  lemma CheckAdmitsIff(user: Option<User>, product: Product, quantity: real, price: real)
    ensures Check(user, product, quantity, price).Admit? <==>
      && user.Some?
      && quantity > 0.0
      && price > 0.0
      && quantity <= product.quantityAvailable as real
      && WithinMaxDiscount(product.regularPrice, price, product.maxDiscount)
  {
    if user.Some? && quantity > 0.0 && price > 0.0 {
      DiscountTestCrossMultiplied(product.regularPrice, price, product.maxDiscount);
    }
  }

  /** The document `addDoc` writes for an admitted bid. */
  function NewBid(id: string, user: User, product: Product, quantity: real, price: real, discount: Discount, createdAt: string): (b: Bid)
    ensures b.status == Pending && b.userId == user.uid && b.userEmail == user.email
    ensures b.id == id && b.createdAt == createdAt && b.discountPercent == discount
    ensures b.bidPrice == price && b.quantity == quantity && b.totalValue == price * quantity
    ensures && b.productId == product.id && b.productName == product.description
            && b.regularPrice == product.regularPrice && b.imageUrl == product.imageUrl
    ensures AdmissibleFor(b, product) <==>
      quantity <= product.quantityAvailable as real && WithinMaxDiscount(product.regularPrice, price, product.maxDiscount)
  {
    Bid(
      id := id,
      userId := user.uid,
      userEmail := user.email,
      productId := product.id,
      productName := product.description,
      bidPrice := price,
      quantity := quantity,
      status := Pending,
      createdAt := createdAt,
      discountPercent := discount,
      totalValue := price * quantity,
      regularPrice := product.regularPrice,
      imageUrl := product.imageUrl)
  }

  /** The derived fields of a bid agree with its own price, quantity and regular price. */
  predicate Consistent(b: Bid)
  {
    && b.quantity > 0.0
    && b.bidPrice > 0.0
    && b.totalValue == b.bidPrice * b.quantity
    && (b.discountPercent.MinusInfinity? <==> b.regularPrice == 0.0)
    && (b.discountPercent.Percent? ==> b.discountPercent.value * b.regularPrice == (b.regularPrice - b.bidPrice) * 100.0)
  }

  /** The bid was admissible against the lot it names, and carries that lot's snapshot. */
  predicate AdmissibleFor(b: Bid, product: Product)
  {
    && b.productId == product.id
    && b.productName == product.description
    && b.regularPrice == product.regularPrice
    && b.imageUrl == product.imageUrl
    && b.quantity <= product.quantityAvailable as real
    && WithinMaxDiscount(product.regularPrice, b.bidPrice, product.maxDiscount)
  }

  /**
   * Every bid written after the checks pass is pending, belongs to the signed-in
   * user, holds the submitted price and quantity with their total and the
   * computed discount, keeps its derived fields consistent and was admissible
   * for its lot.
   */
  lemma NewBidInvariant(id: string, user: User, product: Product, quantity: real, price: real, createdAt: string)
    requires Check(Some(user), product, quantity, price).Admit?
    ensures var b := NewBid(id, user, product, quantity, price, Check(Some(user), product, quantity, price).discount, createdAt);
      && b.status == Pending
      && b.userId == user.uid && b.userEmail == user.email
      && b.id == id && b.createdAt == createdAt
      && b.bidPrice == price && b.quantity == quantity && b.totalValue == price * quantity
      && b.discountPercent == DiscountPercent(product.regularPrice, price)
      && Consistent(b)
      && AdmissibleFor(b, product)
  {
    CheckAdmitsIff(Some(user), product, quantity, price);
  }

  /**
   * The three worked examples on a lot with regular price 100, 50 available and
   * a 20% maximum: 10 at 85 is admitted with a 15% discount and a total of 850;
   * 10 at 70 is refused on the discount; 60 at 90 is refused on the quantity.
   */
  lemma WorkedExamples(user: User, lot: Product)
    requires lot.regularPrice == 100.0 && lot.quantityAvailable == 50 && lot.maxDiscount == 20.0
    ensures Check(Some(user), lot, 10.0, 85.0) == Admit(Percent(15.0))
    ensures NewBid("b", user, lot, 10.0, 85.0, Percent(15.0), "t").totalValue == 850.0
    ensures Check(Some(user), lot, 10.0, 70.0) == Refuse(ExceedsMaxDiscount)
    ensures Check(Some(user), lot, 60.0, 90.0) == Refuse(ExceedsAvailable)
    ensures Check(None, lot, 10.0, 85.0) == Refuse(NotSignedIn)
    ensures Check(Some(user), lot, 10.0, 80.0) == Admit(Percent(20.0))
  {
  }

  /**
   * With a regular price of zero the division yields minus infinity, which is
   * never above the maximum: any positive price for an available quantity is
   * admitted.
   */
  lemma ZeroRegularPriceAdmitsAnyPrice(user: User, lot: Product, quantity: real, price: real)
    requires lot.regularPrice == 0.0
    requires 0.0 < quantity <= lot.quantityAvailable as real && price > 0.0
    ensures Check(Some(user), lot, quantity, price) == Admit(MinusInfinity)
  {
  }
}

=== FILE: catalog.dfy ===
/**
 * How the product list and the admin dashboard arrange products: sorted by
 * category, a heading per distinct category in sorted order, and under each
 * heading the products of that category.
 */
module Catalog {
  import opened Records
  import opened Seqs
  import opened Strings

  function CategoryOf(p: Product): string { p.category }

  /**
   * `products.sort((a, b) => a.category.localeCompare(b.category))`: the
   * fetched products end up ordered by category, and none is lost or duplicated.
   */
  function SortByCategory(ps: seq<Product>): (r: seq<Product>)
    ensures SortedBy(r, CategoryOf)
    ensures multiset(r) == multiset(ps)
  {
    SortBySpec(ps, CategoryOf);
    SortBy(ps, CategoryOf)
  }

  /** `products.map(p => p.category)`. */
  function CategoryList(ps: seq<Product>): seq<string>
  {
    seq(|ps|, i requires 0 <= i < |ps| => ps[i].category)
  }

  /** `[...new Set(products.map(p => p.category))].sort()`. */
  function Categories(ps: seq<Product>): (cs: seq<string>)
    ensures StrictlySorted(cs)
  {
    var d := Dedupe(CategoryList(ps));
    DedupeSpec(CategoryList(ps));
    SortBySpec(d, Id);
    DistinctPermutation(d, SortBy(d, Id));
    SortedDistinctIsStrict(SortBy(d, Id));
    SortBy(d, Id)
  }

  /** The category headings are exactly the categories of the products. */
  lemma CategoriesSpec(ps: seq<Product>)
    ensures forall c :: c in Categories(ps) <==> exists i :: 0 <= i < |ps| && ps[i].category == c
  {
    var d := Dedupe(CategoryList(ps));
    DedupeSpec(CategoryList(ps));
    SortBySpec(d, Id);
    forall c
      ensures c in Categories(ps) <==> exists i :: 0 <= i < |ps| && ps[i].category == c
    {
      assert c in Categories(ps) <==> c in multiset(d);
      if c in CategoryList(ps) {
        var i :| 0 <= i < |ps| && CategoryList(ps)[i] == c;
        assert ps[i].category == c;
      }
      if exists i :: 0 <= i < |ps| && ps[i].category == c {
        var i :| 0 <= i < |ps| && ps[i].category == c;
        assert CategoryList(ps)[i] == c;
      }
    }
  }

  /** `products.filter(product => product.category === category)`: one section. */
  function InCategory(ps: seq<Product>, c: string): (r: seq<Product>)
    ensures |r| <= |ps|
    ensures forall i :: 0 <= i < |r| ==> r[i].category == c
  {
    if ps == [] then []
    else (if ps[0].category == c then [ps[0]] else []) + InCategory(ps[1..], c)
  }

  lemma {:induction false} InCategoryIsWithKey(ps: seq<Product>, c: string)
    ensures InCategory(ps, c) == WithKey(ps, CategoryOf, c)
  {
    if ps != [] {
      InCategoryIsWithKey(ps[1..], c);
    }
  }

  /** Sorting by category does not reorder a section: within a category the products keep the order they were fetched in. */
  lemma SectionsKeepFetchOrder(ps: seq<Product>, c: string)
    ensures InCategory(SortByCategory(ps), c) == InCategory(ps, c)
  {
    InCategoryIsWithKey(SortByCategory(ps), c);
    InCategoryIsWithKey(ps, c);
    SortByStable(ps, CategoryOf, c);
  }

  /** The headings do not depend on the order of the products: reordering them, as sorting does, changes none. */
  lemma HeadingsIgnoreOrder(ps: seq<Product>, qs: seq<Product>)
    requires multiset(ps) == multiset(qs)
    ensures Categories(ps) == Categories(qs)
  {
    CategoriesSpec(ps);
    CategoriesSpec(qs);
    forall c
      ensures c in Categories(ps) <==> c in Categories(qs)
    {
      if exists i :: 0 <= i < |ps| && ps[i].category == c {
        var i :| 0 <= i < |ps| && ps[i].category == c;
        assert ps[i] in multiset(qs);
        var j :| 0 <= j < |qs| && qs[j] == ps[i];
      }
      if exists j :: 0 <= j < |qs| && qs[j].category == c {
        var j :| 0 <= j < |qs| && qs[j].category == c;
        assert qs[j] in multiset(ps);
        var i :| 0 <= i < |ps| && ps[i] == qs[j];
      }
    }
    StrictlySortedUnique(Categories(ps), Categories(qs));
  }

  /** The products whose category is one of `cs`, in their order. */
  function InAnyOf(ps: seq<Product>, cs: seq<string>): seq<Product>
  {
    if ps == [] then []
    else (if ps[0].category in cs then [ps[0]] else []) + InAnyOf(ps[1..], cs)
  }

  /** All sections one after the other, as the page shows them. */
  function Sections(ps: seq<Product>, cs: seq<string>): seq<Product>
  {
    if cs == [] then [] else InCategory(ps, cs[0]) + Sections(ps, cs[1..])
  }

  /** A section holds exactly the products of its category. */
  lemma {:induction false} InCategoryMembers(ps: seq<Product>, c: string)
    ensures forall p :: p in InCategory(ps, c) <==> p in ps && p.category == c
  {
    if ps != [] {
      InCategoryMembers(ps[1..], c);
      assert ps == [ps[0]] + ps[1..];
    }
  }

  lemma {:induction false} SplitOffCategory(ps: seq<Product>, c: string, rest: seq<string>)
    requires c !in rest
    ensures multiset(InAnyOf(ps, [c] + rest)) == multiset(InCategory(ps, c)) + multiset(InAnyOf(ps, rest))
  {
    if ps != [] {
      SplitOffCategory(ps[1..], c, rest);
    }
  }

  lemma {:induction false} SectionsCover(ps: seq<Product>, cs: seq<string>)
    requires Distinct(cs)
    ensures multiset(Sections(ps, cs)) == multiset(InAnyOf(ps, cs))
  {
    if cs == [] {
      NoneOfNothing(ps, cs);
    } else {
      assert Distinct(cs[1..]) by {
        forall i, j | 0 <= i < j < |cs[1..]|
          ensures cs[1..][i] != cs[1..][j]
        {
          assert cs[1..][i] == cs[i + 1] && cs[1..][j] == cs[j + 1];
        }
      }
      var c, rest := cs[0], cs[1..];
      assert c !in rest by {
        forall i | 0 <= i < |rest|
          ensures rest[i] != c
        {
          assert rest[i] == cs[i + 1];
        }
      }
      SectionsCover(ps, rest);
      SplitOffCategory(ps, c, rest);
      assert [c] + rest == cs;
      calc {
        multiset(Sections(ps, cs));
        multiset(InCategory(ps, c) + Sections(ps, rest));
        multiset(InCategory(ps, c)) + multiset(InAnyOf(ps, rest));
        multiset(InAnyOf(ps, [c] + rest));
      }
    }
  }

  lemma {:induction false} NoneOfNothing(ps: seq<Product>, cs: seq<string>)
    requires cs == []
    ensures InAnyOf(ps, cs) == []
  {
    if ps != [] {
      NoneOfNothing(ps[1..], cs);
    }
  }

  lemma {:induction false} AllOfEverything(ps: seq<Product>, cs: seq<string>)
    requires forall i :: 0 <= i < |ps| ==> ps[i].category in cs
    ensures InAnyOf(ps, cs) == ps
  {
    if ps != [] {
      AllOfEverything(ps[1..], cs);
      assert [ps[0]] + ps[1..] == ps;
    }
  }

  /**
   * The page's sections, one per category heading, together show every product
   * exactly once: the concatenated sections are a permutation of the products.
   */
  lemma SectionsPartitionProducts(ps: seq<Product>)
    ensures multiset(Sections(ps, Categories(ps))) == multiset(ps)
  {
    var cs := Categories(ps);
    CategoriesSpec(ps);
    StrictlySortedDistinct(cs);
    SectionsCover(ps, cs);
    AllOfEverything(ps, cs);
  }
}

=== FILE: layout.dfy ===
/**
 * The shell around every signed-in page: the category list it loads for the
 * Products dropdown, the navigation items it builds, and when it shows the
 * back button.
 */
module Layout {
  import opened Wrappers
  import opened Records
  import opened Strings
  import opened Seqs
  import opened Catalog

  /** `.filter(Boolean)` on the category fields: a missing value and the empty string are dropped. */
  function Truthy(raw: seq<Option<string>>): seq<string>
  {
    if raw == [] then []
    else (if raw[0].Some? && raw[0].value != "" then [raw[0].value] else []) + Truthy(raw[1..])
  }

  lemma {:induction false} TruthyMembers(raw: seq<Option<string>>)
    ensures forall c :: c in Truthy(raw) <==> c != "" && Some(c) in raw
  {
    if raw != [] {
      TruthyMembers(raw[1..]);
      assert raw == [raw[0]] + raw[1..];
    }
  }

  /**
   * `[...new Set(fields.filter(Boolean).sort())]`: the dropdown's categories
   * are increasing, so none repeats, and none is empty.
   */
  function ExtractCategories(raw: seq<Option<string>>): (cs: seq<string>)
    ensures StrictlySorted(cs)
    ensures "" !in cs
  {
    var t := Truthy(raw);
    var s := SortBy(t, Id);
    SortBySpec(t, Id);
    DedupeSorted(s);
    TruthyMembers(raw);
    assert forall c :: c in s ==> c in t by {
      forall c | c in s
        ensures c in t
      {
        assert c in multiset(s);
      }
    }
    Dedupe(s)
  }

  /** The dropdown's categories are exactly the non-empty category fields. */
  lemma ExtractCategoriesSpec(raw: seq<Option<string>>)
    ensures forall c :: c in ExtractCategories(raw) <==> c != "" && Some(c) in raw
  {
    var t := Truthy(raw);
    var s := SortBy(t, Id);
    DedupeSpec(s);
    TruthyMembers(raw);
    forall c
      ensures c in s <==> c in t
    {
      assert c in s <==> c in multiset(s);
      assert c in t <==> c in multiset(t);
    }
  }

  /** The category field of each product document. */
  function CategoryFields(ps: seq<Product>): seq<Option<string>>
  {
    seq(|ps|, i requires 0 <= i < |ps| => Some(ps[i].category))
  }

  /**
   * When no product has an empty category, the dropdown lists the same
   * categories, in the same order, as the headings of the product pages.
   */
  lemma DropdownMatchesHeadings(ps: seq<Product>)
    requires forall i :: 0 <= i < |ps| ==> ps[i].category != ""
    ensures ExtractCategories(CategoryFields(ps)) == Categories(ps)
  {
    var raw := CategoryFields(ps);
    ExtractCategoriesSpec(raw);
    CategoriesSpec(ps);
    forall c
      ensures c in ExtractCategories(raw) <==> c in Categories(ps)
    {
      if Some(c) in raw {
        var i :| 0 <= i < |raw| && raw[i] == Some(c);
        assert ps[i].category == c;
      }
      if exists i :: 0 <= i < |ps| && ps[i].category == c {
        var i :| 0 <= i < |ps| && ps[i].category == c;
        assert raw[i] == Some(c);
      }
    }
    StrictlySortedUnique(ExtractCategories(raw), Categories(ps));
  }

  /** The same holds for the sorted list the product pages actually hold. */
  lemma DropdownMatchesPageHeadings(ps: seq<Product>)
    requires forall i :: 0 <= i < |ps| ==> ps[i].category != ""
    ensures ExtractCategories(CategoryFields(ps)) == Categories(SortByCategory(ps))
  {
    DropdownMatchesHeadings(ps);
    HeadingsIgnoreOrder(SortByCategory(ps), ps);
  }

  /** A product with an empty category gets a heading on the pages but no dropdown entry. */
  lemma EmptyCategoryHasNoDropdownEntry(ps: seq<Product>, k: nat)
    requires k < |ps| && ps[k].category == ""
    ensures "" in Categories(ps)
    ensures "" !in ExtractCategories(CategoryFields(ps))
  {
    CategoriesSpec(ps);
    ExtractCategoriesSpec(CategoryFields(ps));
  }

  /** The categories held after the fetch: none when it failed (`None`). */
  function LoadedCategories(fetched: Option<seq<Option<string>>>): (cs: seq<string>)
    ensures fetched.None? ==> cs == []
    ensures StrictlySorted(cs) && "" !in cs
  {
    if fetched.None? then [] else ExtractCategories(fetched.value)
  }

  datatype DropdownItem = DropdownItem(text: string, href: string)

  /** A navigation entry; `dropdownItems` is empty for the entries without a dropdown. */
  datatype NavItem = NavItem(text: string, href: string, dropdown: bool, dropdownItems: seq<DropdownItem>)

  /** The link of a category entry. */
  function CategoryHref(c: string): string
  {
    "/products#category-" + c
  }

  function DropdownItems(categories: seq<string>): seq<DropdownItem>
  {
    seq(|categories|, i requires 0 <= i < |categories| => DropdownItem(categories[i], CategoryHref(categories[i])))
  }

  /** Products (with the category dropdown), My Bids, Profile, and Admin only for an administrator. */
  function NavItems(categories: seq<string>, isAdmin: bool): (items: seq<NavItem>)
    ensures |items| == (if isAdmin then 4 else 3)
    ensures items[0].dropdown && |items[0].dropdownItems| == |categories|
    ensures isAdmin ==> items[3].href == "/admin"
  {
    [ NavItem("Products", "/products", true, DropdownItems(categories)),
      NavItem("My Bids", "/my-bids", false, []),
      NavItem("Profile", "/profile", false, []) ]
    + (if isAdmin then [NavItem("Admin", "/admin", false, [])] else [])
  }

  /**
   * The first three entries are always Products, My Bids and Profile; an
   * entry leads to /admin exactly when the user is an administrator; the
   * entries' links differ; and the dropdown has one entry per category, in
   * order, labelled with it and linking to its anchor on /products.
   */
  lemma NavItemsSpec(categories: seq<string>, isAdmin: bool)
    ensures var items := NavItems(categories, isAdmin);
      && |items| == (if isAdmin then 4 else 3)
      && items[0].text == "Products" && items[1].text == "My Bids" && items[2].text == "Profile"
      && (forall i, j :: 0 <= i < j < |items| ==> items[i].href != items[j].href)
      && ((exists i :: 0 <= i < |items| && items[i].href == "/admin") <==> isAdmin)
      && (forall i :: 1 <= i < |items| ==> !items[i].dropdown && items[i].dropdownItems == [])
      && items[0].dropdown && |items[0].dropdownItems| == |categories|
      && (forall i :: 0 <= i < |categories| ==>
            items[0].dropdownItems[i].text == categories[i] &&
            items[0].dropdownItems[i].href == CategoryHref(categories[i]))
  {
    var items := NavItems(categories, isAdmin);
    if isAdmin {
      assert items[3].href == "/admin";
    }
  }

  /** The back button is shown on every page except the home page. */
  predicate ShowBackButton(pathname: string)
  {
    pathname != "/"
  }

  /** Every page the navigation leads to shows the back button; the home page does not. */
  lemma BackButtonOnNavTargets(categories: seq<string>, isAdmin: bool)
    ensures !ShowBackButton("/")
    ensures forall i :: 0 <= i < |NavItems(categories, isAdmin)| ==> ShowBackButton(NavItems(categories, isAdmin)[i].href)
  {
  }
}

=== FILE: my_bids.dfy ===
/**
 * The "My Bids" page: the signed-in user's own bids, the badge and the
 * actions each bid card shows, and cancelling a bid, which deletes the
 * document and drops it from the list on screen.
 */
module MyBidsPage {
  import opened Wrappers
  import opened Records
  import opened Strings
  import opened Store
  import opened Notifications
  import AdminDashboardPage

  /** `query(collection(db, 'bids'), where('userId', '==', uid))`, in store order. */
  function OwnedBy(bs: seq<Bid>, uid: string): (r: seq<Bid>)
    ensures |r| <= |bs|
    ensures forall i :: 0 <= i < |r| ==> r[i].userId == uid
  {
    if bs == [] then []
    else (if bs[0].userId == uid then [bs[0]] else []) + OwnedBy(bs[1..], uid)
  }

  /** The query returns exactly the user's bids. */
  lemma {:induction false} OwnedByMembers(bs: seq<Bid>, uid: string)
    ensures forall b :: b in OwnedBy(bs, uid) <==> b in bs && b.userId == uid
  {
    if bs != [] {
      OwnedByMembers(bs[1..], uid);
      assert bs == [bs[0]] + bs[1..];
    }
  }

  /** The user's bids keep the store's distinct ids. */
  lemma {:induction false} OwnedByDistinct(bs: seq<Bid>, uid: string)
    requires BidIdsDistinct(bs)
    ensures BidIdsDistinct(OwnedBy(bs, uid))
  {
    if bs != [] {
      DistinctTail(bs);
      OwnedByDistinct(bs[1..], uid);
      var rest := OwnedBy(bs[1..], uid);
      if bs[0].userId == uid {
        OwnedByMembers(bs[1..], uid);
        forall j | 0 <= j < |rest|
          ensures rest[j].id != bs[0].id
        {
          assert rest[j] in bs[1..];
          var k :| 0 <= k < |bs[1..]| && bs[1..][k] == rest[j];
          assert bs[k + 1] == rest[j];
        }
        var r := OwnedBy(bs, uid);
        assert r == [bs[0]] + rest;
        forall i, j | 0 <= i < j < |r|
          ensures r[i].id != r[j].id
        {
          if i > 0 {
            assert r[i] == rest[i - 1];
          }
          assert r[j] == rest[j - 1];
        }
      }
    }
  }

  datatype Action = Revise | Cancel

  /** The buttons on a bid card: Revise and Cancel for a pending bid, none otherwise. */
  function CardActions(status: string): (r: seq<Action>)
    ensures r != [] <==> status == Pending
    ensures status == Pending ==> r == [Revise, Cancel]
  {
    if status == Pending then [Revise, Cancel] else []
  }

  /** The badge colour: green when approved, red when rejected, yellow for anything else. */
  function BadgeColour(status: string): (c: Colour)
    ensures c == Yellow <==> status != Approved && status != Rejected
  {
    if status == Approved then Green
    else if status == Rejected then Red
    else Yellow
  }

  /**
   * The two pages colour a decided bid alike, but for a status that is neither
   * pending nor decided the dashboard shows red and this page yellow.
   */
  lemma BadgeColoursOfTwoPages(status: string)
    requires status != Pending
    ensures AdminDashboardPage.AdminControls(status)[0].StatusBadge?
    ensures var dashboard := AdminDashboardPage.AdminControls(status)[0].colour;
      && (BadgeColour(status) == dashboard <==> status == Approved || status == Rejected)
      && (status != Approved && status != Rejected ==> dashboard == Red && BadgeColour(status) == Yellow)
  {
  }

  class MyBids {
    const db: Database
    var bids: seq<Bid>
    var loading: bool
    /** The user whose bids were last loaded. */
    ghost var owner: Option<string>

    /** The list only ever holds bids of the user it was loaded for, with distinct ids. */
    ghost predicate Valid()
      reads this, db
    {
      && db.Valid()
      && BidIdsDistinct(bids)
      && (owner.None? ==> bids == [])
      && (owner.Some? ==> forall b :: b in bids ==> b.userId == owner.value)
    }

    constructor (db: Database)
      requires db.Valid()
      ensures Valid() && this.db == db
      ensures bids == [] && loading && owner == None
    {
      this.db := db;
      bids := [];
      loading := true;
      owner := None;
    }

    /**
     * Loads the user's bids. With nobody signed in it returns before doing
     * anything, so the page keeps loading. A failed read keeps the list.
     */
    method FetchBids(currentUser: Option<User>, readOk: bool)
      requires Valid()
      modifies this
      ensures Valid()
      ensures currentUser.None? ==> bids == old(bids) && loading == old(loading) && owner == old(owner)
      ensures currentUser.Some? && readOk ==> bids == OwnedBy(db.bids, currentUser.value.uid)
      ensures currentUser.Some? && !readOk ==> bids == old(bids)
      ensures currentUser.Some? ==> !loading
    {
      if currentUser.None? {
        return;
      }
      if readOk {
        var uid := currentUser.value.uid;
        bids := OwnedBy(db.bids, uid);
        owner := Some(uid);
        OwnedByMembers(db.bids, uid);
        OwnedByDistinct(db.bids, uid);
      }
      loading := false;
    }

    /**
     * "Cancel": deletes the bid from the store and, once that succeeded, drops
     * every bid with that id from the list, keeping the others in order. When
     * the delete fails nothing changes. `deleted` is what the delete trigger
     * receives.
     */
    method CancelBid(bidId: string, deleteOk: bool) returns (deleted: Option<Bid>)
      requires Valid()
      modifies this, db
      ensures Valid()
      ensures db.products == old(db.products)
      ensures deleteOk ==> db.bids == WithoutBid(old(db.bids), bidId) && bids == WithoutBid(old(bids), bidId)
      ensures deleteOk ==> deleted == FindBid(old(db.bids), bidId)
      ensures deleteOk ==> forall k :: 0 <= k < |old(bids)| && old(bids)[k].id == bidId ==>
        bids == old(bids)[..k] + old(bids)[k + 1..]
      ensures !deleteOk ==> db.bids == old(db.bids) && bids == old(bids) && deleted.None?
      ensures owner == old(owner) && loading == old(loading)
    {
      if !deleteOk {
        return None;
      }
      deleted := db.DeleteBid(bidId);
      WithoutBidMembers(bids, bidId);
      WithoutBidDistinct(bids, bidId);
      forall k | 0 <= k < |bids| && bids[k].id == bidId {
        WithoutBidAt(bids, k);
      }
      bids := WithoutBid(bids, bidId);
    }

    /** "Revise" only shows a "coming soon" error; it changes nothing. */
    method ReviseBid(bid: Bid) returns (error: string)
      ensures error == "Bid revision functionality coming soon"
    {
      error := "Bid revision functionality coming soon";
    }
  }

  /**
   * Cancelling a bid shown on the page deletes a bid of the signed-in user, and
   * the delete trigger mails its owner exactly once with the cancellation subject.
   */
  lemma CancelMailsOwner(page: seq<Bid>, store: seq<Bid>, uid: string, k: nat, sendOk: bool)
    requires BidIdsDistinct(store)
    requires forall b :: b in page ==> b in store && b.userId == uid
    requires k < |page|
    ensures FindBid(store, page[k].id) == Some(page[k])
    ensures var mail := OnBidCancelled(page[k]);
      && mail.to == page[k].userEmail && mail.subject == CancelledSubject
      && Attempts(Deliver(Some(mail), sendOk)) == 1
      && page[k].userId == uid
  {
    var b := page[k];
    assert b in store;
    var r := FindBid(store, b.id);
    assert r.Some? && r.value in store && r.value.id == b.id;
    var i :| 0 <= i < |store| && store[i] == b;
    var j :| 0 <= j < |store| && store[j] == r.value;
    assert i == j;
  }
}

=== FILE: navigation.dfy ===
/**
 * The navigation bar: reading a dropdown link back into a path and a
 * category, what a click on a category entry does, which entry is active, and
 * the open/closed state of the dropdown.
 */
module Navigation {
  import opened Wrappers
  import opened Strings
  import opened Layout

  /** `const [path, hash] = href.split('#')` and `hash?.replace('category-', '')`. */
  datatype Target = Target(path: string, categoryId: Option<string>)

  /** The path is everything before the first `#`; there is a category exactly when the link has a `#`. */
  function ParseHref(href: string): (t: Target)
    ensures Free(t.path, '#')
    ensures t.path <= href
    ensures t.categoryId.None? <==> Free(href, '#')
    ensures t.categoryId.None? ==> t.path == href
  {
    var parts := Split(href, '#');
    JoinSplit(href, '#');
    assert Free(parts[0], '#');
    if |parts| > 1 then
      assert href == parts[0] + ['#'] + Join(parts[1..], '#');
      Target(parts[0], Some(ReplaceFirst(parts[1], "category-", "")))
    else
      assert href == parts[0];
      Target(parts[0], None)
  }

  /**
   * Any link made of a path and a fragment, neither holding `#`, parses back
   * into that path, and the category is the fragment with its first
   * "category-" removed.
   */
  lemma ParseLink(path: string, hash: string)
    requires Free(path, '#') && Free(hash, '#')
    ensures ParseHref(path + ['#'] + hash) == Target(path, Some(ReplaceFirst(hash, "category-", "")))
  {
    SplitPrefix(path, hash, '#');
    SplitFree(hash, '#');
    assert Split(path + ['#'] + hash, '#') == [path, hash];
  }

  /** A fragment without "category-" is kept whole as the category. */
  lemma ParsePlainFragment(path: string, hash: string)
    requires Free(path, '#') && Free(hash, '#')
    requires forall j :: 0 <= j <= |hash| ==> !OccursAt(hash, "category-", j)
    ensures ParseHref(path + ['#'] + hash).categoryId == Some(hash)
  {
    ParseLink(path, hash);
    ReplaceFirstAbsent(hash, "category-", "");
  }

  /**
   * Parsing the link the layout builds for a category without `#` gives back
   * /products and exactly that category.
   */
  lemma {:induction false} CategoryHrefRoundTrip(c: string)
    requires Free(c, '#')
    ensures ParseHref(CategoryHref(c)) == Target("/products", Some(c))
  {
    var hash := "category-" + c;
    assert Free(hash, '#') by {
      forall i | 0 <= i < |hash|
        ensures hash[i] != '#'
      {
        if i >= 9 {
          assert hash[i] == c[i - 9];
        }
      }
    }
    assert CategoryHref(c) == "/products" + ['#'] + hash;
    SplitPrefix("/products", hash, '#');
    SplitFree(hash, '#');
    assert Split(CategoryHref(c), '#') == ["/products", hash];
    assert OccursAt(hash, "category-", 0);
    ReplaceFirstAt(hash, "category-", "", 0);
    assert hash[9..] == c;
    assert ReplaceFirst(hash, "category-", "") == c;
    var parts := Split(CategoryHref(c), '#');
    assert |parts| > 1 && parts[0] == "/products" && parts[1] == hash;
  }

  /** Only the first two `#`-separated fields of a link are read: anything after a second `#` is dropped. */
  lemma SecondHashDropsRest(path: string, hash: string, rest: string)
    requires Free(path, '#') && Free(hash, '#')
    ensures ParseHref(path + ['#'] + hash + ['#'] + rest) ==
      Target(path, Some(ReplaceFirst(hash, "category-", "")))
  {
    var tail := hash + ['#'] + rest;
    assert path + ['#'] + hash + ['#'] + rest == path + ['#'] + tail;
    SplitPrefix(path, tail, '#');
    SplitPrefix(hash, rest, '#');
  }

  /** A category holding `#` is cut at its first `#` when its link is read back. */
  lemma {:induction false} HashCutsCategory(c: string, rest: string)
    requires Free(c, '#')
    ensures ParseHref(CategoryHref(c + ['#'] + rest)) == Target("/products", Some(c))
  {
    var hash := "category-" + c;
    assert CategoryHref(c + ['#'] + rest) == "/products" + ['#'] + hash + ['#'] + rest;
    assert Free(hash, '#') by {
      forall i | 0 <= i < |hash|
        ensures hash[i] != '#'
      {
        if i >= 9 {
          assert hash[i] == c[i - 9];
        }
      }
    }
    SecondHashDropsRest("/products", hash, rest);
    assert OccursAt(hash, "category-", 0);
    ReplaceFirstAt(hash, "category-", "", 0);
    assert hash[..0] + "" + hash[9..] == c;
  }

  /** For example, "a#b" comes back as "a". */
  lemma HashInCategoryIsCut()
    ensures ParseHref(CategoryHref("a#b")) == Target("/products", Some("a"))
  {
    assert "a#b" == "a" + ['#'] + "b";
    HashCutsCategory("a", "b");
  }

  /** What a click on a dropdown entry asks of the page: scroll to an element, or navigate with a scroll target in the state. */
  datatype ClickEffect = ScrollTo(elementId: string) | NavigateTo(path: string, scrollToCategory: string)

  /**
   * On the entry's own page and with a non-empty category, scroll to that
   * category's section; otherwise navigate to the path, and a missing category
   * becomes the text "undefined" in the scroll target.
   */
  function DropdownClickEffect(pathname: string, href: string): (e: ClickEffect)
    ensures e.ScrollTo? <==>
      pathname == ParseHref(href).path && ParseHref(href).categoryId.Some? && ParseHref(href).categoryId.value != ""
    ensures e.ScrollTo? ==> e.elementId == "category-" + ParseHref(href).categoryId.value
    ensures e.NavigateTo? ==> e.path == ParseHref(href).path
    ensures e.NavigateTo? && ParseHref(href).categoryId.Some? ==>
      e.scrollToCategory == "category-" + ParseHref(href).categoryId.value
    ensures e.NavigateTo? && ParseHref(href).categoryId.None? ==> e.scrollToCategory == "category-undefined"
  {
    var t := ParseHref(href);
    if pathname == t.path && t.categoryId.Some? && t.categoryId.value != "" then
      ScrollTo("category-" + t.categoryId.value)
    else
      NavigateTo(t.path, "category-" + (if t.categoryId.Some? then t.categoryId.value else "undefined"))
  }

  /**
   * A click on a layout category entry scrolls to that category's section
   * when /products is already shown, and otherwise navigates to /products
   * with that section as the scroll target.
   */
  lemma ClickOnCategoryEntry(pathname: string, c: string)
    requires Free(c, '#') && c != ""
    ensures DropdownClickEffect(pathname, CategoryHref(c)) ==
      if pathname == "/products" then ScrollTo("category-" + c) else NavigateTo("/products", "category-" + c)
  {
    CategoryHrefRoundTrip(c);
  }

  /** An entry is highlighted when the current path equals its link exactly. */
  predicate IsActive(pathname: string, item: NavItem)
  {
    pathname == item.href
  }

  /** At most one entry of the layout's navigation is highlighted at a time. */
  lemma AtMostOneActive(pathname: string, categories: seq<string>, isAdmin: bool)
    ensures var items := NavItems(categories, isAdmin);
      forall i, j :: 0 <= i < |items| && 0 <= j < |items| && IsActive(pathname, items[i]) && IsActive(pathname, items[j]) ==> i == j
  {
    NavItemsSpec(categories, isAdmin);
  }

  /** The dropdown menu of an entry is shown only while open, and only for a dropdown entry with at least one item. */
  predicate MenuVisible(dropdownOpen: bool, item: NavItem)
  {
    dropdownOpen && item.dropdown && |item.dropdownItems| > 0
  }

  /** In the layout only the Products entry can show a menu, and it does exactly while open with at least one category. */
  lemma OnlyProductsMenu(dropdownOpen: bool, categories: seq<string>, isAdmin: bool)
    ensures var items := NavItems(categories, isAdmin);
      && (MenuVisible(dropdownOpen, items[0]) <==> dropdownOpen && categories != [])
      && forall i :: 1 <= i < |items| ==> !MenuVisible(dropdownOpen, items[i])
  {
    NavItemsSpec(categories, isAdmin);
  }

  /** The bar's state: whether the dropdown is open, and the path the router shows. */
  class NavigationBar {
    var dropdownOpen: bool
    var pathname: string

    constructor (pathname: string)
      ensures !dropdownOpen && this.pathname == pathname
    {
      dropdownOpen := false;
      this.pathname := pathname;
    }

    /** A click on a dropdown entry: performs the effect, which moves the router when it navigates, and always closes the dropdown. */
    method HandleDropdownClick(href: string) returns (effect: ClickEffect)
      modifies this
      ensures effect == DropdownClickEffect(old(pathname), href)
      ensures pathname == if effect.NavigateTo? then effect.path else old(pathname)
      ensures !dropdownOpen
    {
      effect := DropdownClickEffect(pathname, href);
      if effect.NavigateTo? {
        pathname := effect.path;
      }
      dropdownOpen := false;
    }

    /** The chevron button flips the dropdown. */
    method ToggleDropdown()
      modifies this
      ensures dropdownOpen == !old(dropdownOpen)
      ensures pathname == old(pathname)
    {
      dropdownOpen := !dropdownOpen;
    }

    /** A click on the overlay outside the menu closes it. */
    method CloseDropdown()
      modifies this
      ensures !dropdownOpen
      ensures pathname == old(pathname)
    {
      dropdownOpen := false;
    }
  }
}

=== FILE: notifications.dfy ===
/**
 * The two store triggers that e-mail bidders: one on every update of a bid
 * document, which mails only when the status changed, and one on every
 * deletion, which always mails a cancellation. A send failure is logged and
 * swallowed; no handler retries.
 */
module Notifications {
  import opened Wrappers
  import opened Records

  const FromAddress: string := "\"Haleon Deals\" <updates@haleondeals.com>"
  const ApprovedSubject: string := "Your Haleon Deals Bid Has Been Approved!"
  const RejectedSubject: string := "Update on Your Haleon Deals Bid"
  const CancelledSubject: string := "Your Haleon Deals Bid Has Been Cancelled"

  /** The paragraph the template wraps around the bid details; `NoMessage` is the empty string. */
  datatype Message = Congratulations | NotAccepted | NoMessage | CancelledAsRequested

  /** `getEmailTemplate(bid, message)`: the body shows this bid's details under this message. */
  datatype Body = Template(bid: Bid, message: Message)

  datatype Mail = Mail(from: string, to: string, subject: string, body: Body)

  /** `onBidStatusChange`: the mail for an update from `before` to `after`, if any. */
  function OnBidStatusChange(before: Bid, after: Bid): (mail: Option<Mail>)
    ensures mail.Some? <==> before.status != after.status
    ensures mail.Some? ==> mail.value.from == FromAddress && mail.value.to == after.userEmail
    ensures mail.Some? ==> mail.value.body.bid == after
  {
    if after.status == before.status then None
    else
      var subject := if after.status == Approved then ApprovedSubject
                     else if after.status == Rejected then RejectedSubject
                     else "";
      var message := if after.status == Approved then Congratulations
                     else if after.status == Rejected then NotAccepted
                     else NoMessage;
      Some(Mail(FromAddress, after.userEmail, subject, Template(after, message)))
  }

  /** `onBidCancelled`: every deletion mails the deleted bid's owner. */
  function OnBidCancelled(snapshot: Bid): (mail: Mail)
    ensures mail.from == FromAddress && mail.to == snapshot.userEmail
    ensures mail.subject == CancelledSubject
    ensures mail.body == Template(snapshot, CancelledAsRequested)
  {
    Mail(FromAddress, snapshot.userEmail, CancelledSubject, Template(snapshot, CancelledAsRequested))
  }

  /** The subject chosen for a status change: approval, rejection, or empty for any other new status. */
  lemma SubjectByNewStatus(before: Bid, after: Bid)
    requires before.status != after.status
    ensures var m := OnBidStatusChange(before, after).value;
      && (after.status == Approved ==> m.subject == ApprovedSubject && m.body.message == Congratulations)
      && (after.status == Rejected ==> m.subject == RejectedSubject && m.body.message == NotAccepted)
      && (after.status != Approved && after.status != Rejected ==> m.subject == "" && m.body.message == NoMessage)
  {
  }

  /** What a handler did with its one mail: nothing to send, sent, or a send error that was logged. */
  datatype Delivery = NothingToSend | Sent(mail: Mail) | FailureLogged(mail: Mail)

  /** The `try { sendMail } catch { console.error }` around the single send; `sendOk` is the transport's answer. */
  function Deliver(mail: Option<Mail>, sendOk: bool): (d: Delivery)
    ensures d.NothingToSend? <==> mail.None?
    ensures d.Sent? <==> mail.Some? && sendOk
    ensures d.FailureLogged? <==> mail.Some? && !sendOk
    ensures !d.NothingToSend? ==> d.mail == mail.value
  {
    if mail.None? then NothingToSend
    else if sendOk then Sent(mail.value)
    else FailureLogged(mail.value)
  }

  /** The number of send attempts a delivery made: at most one per event. */
  function Attempts(d: Delivery): (n: nat)
    ensures n <= 1
  {
    if d.NothingToSend? then 0 else 1
  }

  /** Re-applying the status a bid already has mails nobody, and a real change mails exactly the bidder once. */
  lemma RepeatedDecisionIsSilent(b: Bid, status: string, sendOk: bool)
    ensures b.status == status ==> Deliver(OnBidStatusChange(b, b.(status := status)), sendOk) == NothingToSend
    ensures b.status != status ==>
      Attempts(Deliver(OnBidStatusChange(b, b.(status := status)), sendOk)) == 1 &&
      OnBidStatusChange(b, b.(status := status)).value.to == b.userEmail
  {
  }
}

=== FILE: product_list.dfy ===
/**
 * The product list page: the fetched products, the bid dialog's state, and
 * the submit handler, which checks the bid, writes one pending bid document
 * and resets the dialog.
 */
module ProductListPage {
  import opened Wrappers
  import opened Records
  import opened Bidding
  import opened Catalog
  import opened Store

  datatype SubmitOutcome =
    | Refused(reason: Rejection)  // an error message, nothing written
    | WriteFailed                 // "Failed to submit bid", nothing written
    | Submitted(bid: Bid)         // the thank-you message; the bid is in the store

  class ProductList {
    const db: Database
    var products: seq<Product>
    var loading: bool
    var selectedProduct: Option<Product>
    var bidQuantity: real
    var bidPrice: real

    ghost predicate Valid()
      reads this, db
    {
      db.Valid()
    }

    constructor (db: Database)
      requires db.Valid()
      ensures Valid() && this.db == db
      ensures products == [] && loading
      ensures selectedProduct == None && bidQuantity == 0.0 && bidPrice == 0.0
    {
      this.db := db;
      products := [];
      loading := true;
      selectedProduct := None;
      bidQuantity := 0.0;
      bidPrice := 0.0;
    }

    /** Loads the products, sorted by category; a failed read keeps the list. Either way loading ends. */
    method FetchProducts(readOk: bool)
      modifies this
      ensures products == if readOk then SortByCategory(db.products) else old(products)
      ensures !loading
      ensures selectedProduct == old(selectedProduct)
      ensures bidQuantity == old(bidQuantity) && bidPrice == old(bidPrice)
    {
      if readOk {
        products := SortByCategory(db.products);
      }
      loading := false;
    }

    /** The "Place Bid" button opens the dialog for a product. */
    method SelectProduct(p: Product)
      modifies this
      ensures selectedProduct == Some(p)
      ensures products == old(products) && loading == old(loading)
      ensures bidQuantity == old(bidQuantity) && bidPrice == old(bidPrice)
    {
      selectedProduct := Some(p);
    }

    /** The dialog's "Cancel" button closes it and keeps the typed values. */
    method CloseDialog()
      modifies this
      ensures selectedProduct == None
      ensures products == old(products) && loading == old(loading)
      ensures bidQuantity == old(bidQuantity) && bidPrice == old(bidPrice)
    {
      selectedProduct := None;
    }

    /** The quantity and price inputs store what is typed. */
    method EnterBid(quantity: real, price: real)
      modifies this
      ensures bidQuantity == quantity && bidPrice == price
      ensures products == old(products) && loading == old(loading)
      ensures selectedProduct == old(selectedProduct)
    {
      bidQuantity := quantity;
      bidPrice := price;
    }

    /**
     * "Submit Bid". The checks run on the typed quantity and price; when they
     * pass and the write succeeds, exactly one pending bid is appended to the
     * store and the dialog is reset; otherwise nothing is written and the
     * dialog keeps its state. The product itself is never changed: its
     * available quantity is not reduced.
     */
    method HandleBidSubmit(product: Product, currentUser: Option<User>, newId: string, now: string, writeOk: bool)
      returns (outcome: SubmitOutcome)
      requires Valid()
      requires !HasBid(db.bids, newId)
      modifies this, db
      ensures Valid()
      ensures db.products == old(db.products) && products == old(products) && loading == old(loading)
      ensures var verdict := Check(currentUser, product, old(bidQuantity), old(bidPrice));
        verdict.Refuse? ==> outcome == Refused(verdict.reason)
      ensures var verdict := Check(currentUser, product, old(bidQuantity), old(bidPrice));
        verdict.Admit? && !writeOk ==> outcome == WriteFailed
      ensures var verdict := Check(currentUser, product, old(bidQuantity), old(bidPrice));
        verdict.Admit? && writeOk ==>
          outcome == Submitted(NewBid(newId, currentUser.value, product, old(bidQuantity), old(bidPrice), verdict.discount, now))
      ensures outcome.Submitted? ==>
        db.bids == old(db.bids) + [outcome.bid] &&
        selectedProduct == None && bidPrice == 0.0 && bidQuantity == 0.0
      ensures !outcome.Submitted? ==>
        db.bids == old(db.bids) &&
        selectedProduct == old(selectedProduct) && bidPrice == old(bidPrice) && bidQuantity == old(bidQuantity)
    {
      if currentUser.None? {
        return Refused(NotSignedIn);
      }
      if bidQuantity <= 0.0 || bidPrice <= 0.0 {
        return Refused(InvalidQuantityOrPrice);
      }
      if bidQuantity > product.quantityAvailable as real {
        return Refused(ExceedsAvailable);
      }
      var discount := DiscountPercent(product.regularPrice, bidPrice);
      if ExceedsMax(discount, product.maxDiscount) {
        return Refused(ExceedsMaxDiscount);
      }
      if !writeOk {
        return WriteFailed;
      }
      var bid := NewBid(newId, currentUser.value, product, bidQuantity, bidPrice, discount, now);
      db.AddBid(bid);
      selectedProduct := None;
      bidPrice := 0.0;
      bidQuantity := 0.0;
      outcome := Submitted(bid);
    }
  }
}

=== FILE: records.dfy ===
/**
 * The documents of the portal's two collections, `products` and `bids`, and
 * the signed-in user. Money and percentages are exact reals; the quantity a
 * buyer types is a real too, because the form stores `Number(input)`.
 */
module Records {
  import opened Wrappers

  /** The three values of a bid's `status` field. Records from the store are not checked, so a status is any string. */
  const Pending: string := "pending"
  const Approved: string := "approved"
  const Rejected: string := "rejected"

  /** The signed-in account: its uid and e-mail address. */
  datatype User = User(uid: string, email: string)

  /** A product lot as the admin import writes it. */
  datatype Product = Product(
    id: string,
    category: string,
    brand: string,
    upc: string,
    description: string,
    regularPrice: real,
    expiryDate: string,
    caseQuantity: int,
    closeBidDate: string,
    quantityAvailable: int,
    lotNumber: string,
    maxDiscount: real,
    imageUrl: Option<string>)

  /**
   * A discount as JavaScript computes `(regular - price) / regular * 100` for a
   * positive price: a finite percentage, or minus infinity when the regular
   * price is zero.
   */
  datatype Discount = Percent(value: real) | MinusInfinity

  /** A bid document, with the lot fields copied into it at submission. */
  datatype Bid = Bid(
    id: string,
    userId: string,
    userEmail: string,
    productId: string,
    productName: string,
    bidPrice: real,
    quantity: real,
    status: string,
    createdAt: string,
    discountPercent: Discount,
    totalValue: real,
    regularPrice: real,
    imageUrl: Option<string>)

  /** The colours of a status badge. */
  datatype Colour = Green | Red | Yellow

  predicate ProductIdsDistinct(ps: seq<Product>)
  {
    forall i, j :: 0 <= i < j < |ps| ==> ps[i].id != ps[j].id
  }

  predicate BidIdsDistinct(bs: seq<Bid>)
  {
    forall i, j :: 0 <= i < j < |bs| ==> bs[i].id != bs[j].id
  }

  predicate HasBid(bs: seq<Bid>, id: string)
  {
    exists i :: 0 <= i < |bs| && bs[i].id == id
  }

  predicate HasProduct(ps: seq<Product>, id: string)
  {
    exists i :: 0 <= i < |ps| && ps[i].id == id
  }
}

=== FILE: routes.dfy ===
/**
 * Which page a path shows: the public pages, the signed-in pages nested under
 * the layout behind the private guard, and the admin page behind both guards.
 */
module Routes {
  import opened Wrappers
  import opened Layout

  datatype Page =
    | LoginView | RegisterView | RequestAccessView | ForgotPasswordView | SetupView
    | DashboardView | ProductsView | MyBidsView | ProfileView | AdminView

  /** What the router shows: a page (inside the layout or not), a redirect, or nothing for an unknown path. */
  datatype Outcome = Render(page: Page, inLayout: bool) | RedirectTo(path: string) | NoMatch

  /** `PrivateRoute`: the children for a signed-in user, otherwise a redirect to the login page. */
  function PrivateRoute(signedIn: bool, children: Outcome): Outcome
  {
    if signedIn then children else RedirectTo("/login")
  }

  /** `AdminRoute`: no user goes to the login page, a user who is not an administrator to the home page. */
  function AdminRoute(signedIn: bool, isAdmin: bool, children: Outcome): (r: Outcome)
    ensures r == PrivateRoute(signedIn, if isAdmin then children else RedirectTo("/"))
  {
    if !signedIn then RedirectTo("/login")
    else if !isAdmin then RedirectTo("/")
    else children
  }

  /** The pages reachable without signing in. */
  function PublicPage(path: string): Option<Page>
  {
    if path == "/login" then Some(LoginView)
    else if path == "/register" then Some(RegisterView)
    else if path == "/request-access" then Some(RequestAccessView)
    else if path == "/forgot-password" then Some(ForgotPasswordView)
    else if path == "/setup" then Some(SetupView)
    else None
  }

  /** The pages nested under "/" and the layout. */
  function LayoutPage(path: string): Option<Page>
  {
    if path == "/" then Some(DashboardView)
    else if path == "/products" then Some(ProductsView)
    else if path == "/my-bids" then Some(MyBidsView)
    else if path == "/profile" then Some(ProfileView)
    else if path == "/admin" then Some(AdminView)
    else None
  }

  /** The route table. */
  function Resolve(path: string, signedIn: bool, isAdmin: bool): (r: Outcome)
    ensures r.NoMatch? <==> PublicPage(path).None? && LayoutPage(path).None?
    ensures r.Render? && r.inLayout ==> signedIn
    ensures r.Render? && r.page == AdminView ==> signedIn && isAdmin
  {
    match PublicPage(path)
    case Some(p) => Render(p, false)
    case None =>
      match LayoutPage(path)
      case None => NoMatch
      case Some(p) =>
        var page := Render(p, true);
        PrivateRoute(signedIn, if p == AdminView then AdminRoute(signedIn, isAdmin, page) else page)
  }

  /**
   * The admin dashboard renders exactly for a signed-in administrator; a
   * visitor is sent to the login page and a signed-in non-administrator home.
   */
  lemma AdminPageGuarded(signedIn: bool, isAdmin: bool)
    ensures Resolve("/admin", signedIn, isAdmin).Render? <==> signedIn && isAdmin
    ensures !signedIn ==> Resolve("/admin", signedIn, isAdmin) == RedirectTo("/login")
    ensures signedIn && !isAdmin ==> Resolve("/admin", signedIn, isAdmin) == RedirectTo("/")
    ensures signedIn && isAdmin ==> Resolve("/admin", signedIn, isAdmin) == Render(AdminView, true)
  {
  }

  /** A page renders for a visitor only if it is public, and public pages render the same whoever asks. */
  lemma VisitorsSeeOnlyPublicPages(path: string, signedIn: bool, isAdmin: bool)
    ensures Resolve(path, false, isAdmin).Render? <==> PublicPage(path).Some?
    ensures PublicPage(path).Some? ==> Resolve(path, signedIn, isAdmin) == Render(PublicPage(path).value, false)
    ensures Resolve(path, signedIn, isAdmin).Render? && Resolve(path, signedIn, isAdmin).inLayout ==> signedIn
  {
  }

  /** Every redirect ends on a page that renders for that user: no redirect loops. */
  lemma RedirectsLand(path: string, signedIn: bool, isAdmin: bool)
    ensures var r := Resolve(path, signedIn, isAdmin);
      r.RedirectTo? ==> Resolve(r.path, signedIn, isAdmin).Render?
  {
  }

  /** For a signed-in user every entry of the layout's navigation leads to a page that renders inside the layout. */
  lemma NavEntriesRender(categories: seq<string>, isAdmin: bool)
    ensures var items := NavItems(categories, isAdmin);
      forall i :: 0 <= i < |items| ==> Resolve(items[i].href, true, isAdmin).Render? && Resolve(items[i].href, true, isAdmin).inLayout
  {
    NavItemsSpec(categories, isAdmin);
  }
}

=== FILE: seqs.dfy ===
/**
 * Sequence operations behind the portal's list handling: a stable sort by a
 * string key (JavaScript's `sort` with a comparator on one field, or its
 * default `sort` on strings), and the duplicate removal `[...new Set(xs)]`.
 */
module Seqs {
  import opened Strings

  /** The identity on strings: the key for sorting strings themselves. */
  function Id(s: string): string { s }

  /** Non-decreasing by `key`. */
  predicate SortedBy<T>(s: seq<T>, key: T -> string)
  {
    forall i, j :: 0 <= i < j < |s| ==> LessEq(key(s[i]), key(s[j]))
  }

  /** Increasing, so also duplicate-free. */
  predicate StrictlySorted(s: seq<string>)
  {
    forall i, j :: 0 <= i < j < |s| ==> Less(s[i], s[j])
  }

  predicate Distinct<T(==)>(s: seq<T>)
  {
    forall i, j :: 0 <= i < j < |s| ==> s[i] != s[j]
  }

  /** Puts `x` in front of the first element whose key is not below `x`'s, so equal keys keep their order. */
  function Insert<T>(x: T, s: seq<T>, key: T -> string): (r: seq<T>)
    ensures multiset(r) == multiset(s) + multiset{x}
  {
    if s == [] || !Less(key(s[0]), key(x)) then [x] + s
    else
      assert s == [s[0]] + s[1..];
      [s[0]] + Insert(x, s[1..], key)
  }

  /** A stable sort by `key` (insertion sort); it neither loses nor adds an element. */
  function SortBy<T>(s: seq<T>, key: T -> string): (r: seq<T>)
    ensures multiset(r) == multiset(s)
  {
    if s == [] then []
    else
      assert s == [s[0]] + s[1..];
      Insert(s[0], SortBy(s[1..], key), key)
  }

  lemma SortedTail<T>(s: seq<T>, key: T -> string)
    requires s != [] && SortedBy(s, key)
    ensures SortedBy(s[1..], key)
  {
    forall i, j | 0 <= i < j < |s[1..]|
      ensures LessEq(key(s[1..][i]), key(s[1..][j]))
    {
      assert s[1..][i] == s[i + 1] && s[1..][j] == s[j + 1];
    }
  }

  /** Putting in front an element whose key is at most every other key keeps the order. */
  lemma SortedCons<T>(x: T, s: seq<T>, key: T -> string)
    requires SortedBy(s, key)
    requires forall j :: 0 <= j < |s| ==> LessEq(key(x), key(s[j]))
    ensures SortedBy([x] + s, key)
  {
    var r := [x] + s;
    forall i, j | 0 <= i < j < |r|
      ensures LessEq(key(r[i]), key(r[j]))
    {
      assert r[j] == s[j - 1];
      if i > 0 {
        assert r[i] == s[i - 1];
      }
    }
  }

  lemma {:induction false} InsertSorted<T>(x: T, s: seq<T>, key: T -> string)
    requires SortedBy(s, key)
    ensures SortedBy(Insert(x, s, key), key)
    ensures multiset(Insert(x, s, key)) == multiset(s) + multiset{x}
  {
    if s == [] || !Less(key(s[0]), key(x)) {
      if s != [] {
        NotLessIsLessEq(key(x), key(s[0]));
        forall j | 0 <= j < |s|
          ensures LessEq(key(x), key(s[j]))
        {
          if j > 0 {
            LessEqTransitive(key(x), key(s[0]), key(s[j]));
          }
        }
      }
      SortedCons(x, s, key);
    } else {
      var t := Insert(x, s[1..], key);
      SortedTail(s, key);
      InsertSorted(x, s[1..], key);
      InsertHeadBelow(x, s, key);
      SortedCons(s[0], t, key);
    }
  }

  /** When `s[0]`'s key is below `x`'s, it is at most every key of `x` inserted into the rest. */
  lemma InsertHeadBelow<T>(x: T, s: seq<T>, key: T -> string)
    requires s != [] && SortedBy(s, key) && Less(key(s[0]), key(x))
    ensures forall k :: 0 <= k < |Insert(x, s[1..], key)| ==> LessEq(key(s[0]), key(Insert(x, s[1..], key)[k]))
  {
    var t := Insert(x, s[1..], key);
    forall k | 0 <= k < |t|
      ensures LessEq(key(s[0]), key(t[k]))
    {
      assert t[k] in multiset(t);
      if t[k] != x {
        assert t[k] in multiset(s[1..]);
        var i :| 0 <= i < |s[1..]| && s[1..][i] == t[k];
        assert s[i + 1] == t[k];
      }
    }
  }

  /** The sort puts the elements in order and neither loses nor adds any. */
  lemma {:induction false} SortBySpec<T>(s: seq<T>, key: T -> string)
    ensures SortedBy(SortBy(s, key), key)
    ensures multiset(SortBy(s, key)) == multiset(s)
  {
    if s != [] {
      SortBySpec(s[1..], key);
      InsertSorted(s[0], SortBy(s[1..], key), key);
      assert s == [s[0]] + s[1..];
    }
  }

  /** The elements of `s` whose key is `k`, in the order of `s`. */
  function WithKey<T>(s: seq<T>, key: T -> string, k: string): (r: seq<T>)
    ensures |r| <= |s|
    ensures forall i :: 0 <= i < |r| ==> key(r[i]) == k
  {
    if s == [] then [] else (if key(s[0]) == k then [s[0]] else []) + WithKey(s[1..], key, k)
  }

  /** Everything `Insert` passes over has a smaller key than `x`, so among equal keys `x` lands first. */
  lemma {:induction false} InsertWithKey<T>(x: T, s: seq<T>, key: T -> string, k: string)
    ensures WithKey(Insert(x, s, key), key, k) == (if key(x) == k then [x] else []) + WithKey(s, key, k)
  {
    if s == [] || !Less(key(s[0]), key(x)) {
      assert ([x] + s)[1..] == s;
    } else {
      var t := Insert(x, s[1..], key);
      InsertWithKey(x, s[1..], key, k);
      assert ([s[0]] + t)[1..] == t;
      if key(x) == k {
        LessIrreflexive(k);
        assert key(s[0]) != k;
      }
    }
  }

  /** `SortBy` is stable: for every key, the elements carrying it keep their input order. */
  lemma {:induction false} SortByStable<T>(s: seq<T>, key: T -> string, k: string)
    ensures WithKey(SortBy(s, key), key, k) == WithKey(s, key, k)
  {
    if s != [] {
      SortByStable(s[1..], key, k);
      InsertWithKey(s[0], SortBy(s[1..], key), key, k);
    }
  }

  /** `[...new Set(s)]`: each value once, at the place of its first occurrence. */
  function Dedupe<T(==)>(s: seq<T>): (r: seq<T>)
    ensures forall i :: 0 <= i < |r| ==> r[i] in s
    ensures forall i :: 0 <= i < |s| ==> s[i] in r
  {
    if s == [] then []
    else
      var d := Dedupe(s[..|s| - 1]);
      assert s == s[..|s| - 1] + [s[|s| - 1]];
      if s[|s| - 1] in d then d else d + [s[|s| - 1]]
  }

  /** No value is kept twice, and the values kept are exactly those of `s`. */
  lemma {:induction false} DedupeSpec<T>(s: seq<T>)
    ensures Distinct(Dedupe(s))
    ensures forall x :: x in Dedupe(s) <==> x in s
  {
    if s != [] {
      var init := s[..|s| - 1];
      DedupeSpec(init);
      assert s == init + [s[|s| - 1]];
    }
  }

  /** Removing duplicates from a sorted list leaves a strictly increasing one. */
  lemma {:induction false} DedupeSorted(s: seq<string>)
    requires SortedBy(s, Id)
    ensures StrictlySorted(Dedupe(s))
  {
    if s != [] {
      var init := s[..|s| - 1];
      var last := s[|s| - 1];
      assert SortedBy(init, Id) by {
        forall i, j | 0 <= i < j < |init|
          ensures LessEq(Id(init[i]), Id(init[j]))
        {
          assert init[i] == s[i] && init[j] == s[j];
        }
      }
      DedupeSorted(init);
      DedupeSpec(init);
      var d := Dedupe(init);
      if last !in d {
        forall i | 0 <= i < |d|
          ensures Less(d[i], last)
        {
          assert d[i] in init;
          var k :| 0 <= k < |init| && init[k] == d[i];
          assert s[k] == d[i];
          assert LessEq(Id(s[k]), Id(s[|s| - 1]));
        }
      }
    }
  }

  /** A sorted list without duplicates is strictly increasing. */
  lemma SortedDistinctIsStrict(s: seq<string>)
    requires SortedBy(s, Id) && Distinct(s)
    ensures StrictlySorted(s)
  {
    forall i, j | 0 <= i < j < |s|
      ensures Less(s[i], s[j])
    {
      assert LessEq(Id(s[i]), Id(s[j]));
    }
  }

  lemma StrictlySortedDistinct(s: seq<string>)
    requires StrictlySorted(s)
    ensures Distinct(s)
  {
    forall i, j | 0 <= i < j < |s|
      ensures s[i] != s[j]
    {
      LessIrreflexive(s[i]);
    }
  }

  /** Reordering keeps a list duplicate-free. */
  lemma {:induction false} DistinctPermutation<T>(a: seq<T>, b: seq<T>)
    requires Distinct(a) && multiset(a) == multiset(b)
    ensures Distinct(b)
  {
    forall x | x in multiset(a)
      ensures multiset(a)[x] == 1
    {
      DistinctCount(a, x);
    }
    forall i, j | 0 <= i < j < |b|
      ensures b[i] != b[j]
    {
      PairCount(b, i, j);
      assert b[i] in multiset(a);
    }
  }

  lemma PairCount<T>(s: seq<T>, i: nat, j: nat)
    requires i < j < |s|
    ensures s[i] == s[j] ==> multiset(s)[s[i]] >= 2
  {
    assert s == s[..j] + [s[j]] + s[j + 1..];
    assert s[i] in multiset(s[..j]);
  }

  lemma {:induction false} DistinctCount<T>(s: seq<T>, x: T)
    requires Distinct(s) && x in s
    ensures multiset(s)[x] == 1
  {
    if s[0] == x {
      assert x !in s[1..];
    } else {
      assert Distinct(s[1..]) by {
        forall i, j | 0 <= i < j < |s[1..]|
          ensures s[1..][i] != s[1..][j]
        {
          assert s[1..][i] == s[i + 1] && s[1..][j] == s[j + 1];
        }
      }
      DistinctCount(s[1..], x);
    }
    assert s == [s[0]] + s[1..];
  }

  /** Two increasing lists with the same elements are the same list. */
  lemma {:induction false} StrictlySortedUnique(a: seq<string>, b: seq<string>)
    requires StrictlySorted(a) && StrictlySorted(b)
    requires forall x :: x in a <==> x in b
    ensures a == b
  {
    assert a != [] ==> a[0] in b;
    assert b != [] ==> b[0] in a;
    if a != [] && b != [] {
      assert a[0] == b[0] by {
        assert a[0] in b && b[0] in a;
        var i :| 0 <= i < |b| && b[i] == a[0];
        var j :| 0 <= j < |a| && a[j] == b[0];
        if a[0] != b[0] {
          assert i > 0 && j > 0;
          assert Less(b[0], a[0]) && Less(a[0], b[0]);
          LessAsymmetric(a[0], b[0]);
        }
      }
      forall x
        ensures x in a[1..] <==> x in b[1..]
      {
        if x in a[1..] {
          var i :| 0 <= i < |a[1..]| && a[1..][i] == x;
          assert Less(a[0], a[i + 1]);
          LessIrreflexive(x);
          assert x in b;
        }
        if x in b[1..] {
          var i :| 0 <= i < |b[1..]| && b[1..][i] == x;
          assert Less(b[0], b[i + 1]);
          LessIrreflexive(x);
          assert x in a;
        }
      }
      StrictlySortedUnique(a[1..], b[1..]);
      assert a == [a[0]] + a[1..] && b == [b[0]] + b[1..];
    }
  }
}

=== FILE: store.dfy ===
/**
 * The document store the pages talk to: the `products` and `bids`
 * collections, each a list of documents with distinct ids, in the order they
 * were added. The operations are the ones the pages call: add a document,
 * update one field of a document (which fails when there is no such
 * document), delete a document (which succeeds whether or not it exists),
 * and delete every product.
 */
module Store {
  import opened Wrappers
  import opened Records

  /** The document with the given id, if there is one. */
  function FindBid(bs: seq<Bid>, id: string): (r: Option<Bid>)
    ensures r.Some? <==> HasBid(bs, id)
    ensures r.Some? ==> r.value in bs && r.value.id == id
  {
    if bs == [] then None
    else if bs[0].id == id then Some(bs[0])
    else
      var r := FindBid(bs[1..], id);
      assert HasBid(bs, id) ==> bs[0].id == id || HasBid(bs[1..], id) by {
        if HasBid(bs, id) {
          var i :| 0 <= i < |bs| && bs[i].id == id;
          if i > 0 {
            assert bs[1..][i - 1].id == id;
          }
        }
      }
      assert HasBid(bs[1..], id) ==> HasBid(bs, id) by {
        if HasBid(bs[1..], id) {
          var i :| 0 <= i < |bs[1..]| && bs[1..][i].id == id;
          assert bs[i + 1].id == id;
        }
      }
      r
  }

  /** `updateDoc(bid, { status })`: the status of the documents with that id is replaced, nothing else. */
  function WithStatus(bs: seq<Bid>, id: string, status: string): (r: seq<Bid>)
    ensures |r| == |bs|
    ensures forall i :: 0 <= i < |bs| ==>
      r[i] == if bs[i].id == id then bs[i].(status := status) else bs[i]
  {
    if bs == [] then []
    else [if bs[0].id == id then bs[0].(status := status) else bs[0]] + WithStatus(bs[1..], id, status)
  }

  /** `deleteDoc(bid)` on the store, and `bids.filter(bid => bid.id !== bidId)` on a page's list. */
  function WithoutBid(bs: seq<Bid>, id: string): (r: seq<Bid>)
    ensures |r| <= |bs|
    ensures forall i :: 0 <= i < |r| ==> r[i].id != id
  {
    if bs == [] then []
    else (if bs[0].id == id then [] else [bs[0]]) + WithoutBid(bs[1..], id)
  }

  /** What is left after a delete is every document of another id, and only those. */
  lemma {:induction false} WithoutBidMembers(bs: seq<Bid>, id: string)
    ensures forall b :: b in WithoutBid(bs, id) <==> b in bs && b.id != id
  {
    if bs != [] {
      WithoutBidMembers(bs[1..], id);
      assert bs == [bs[0]] + bs[1..];
    }
  }

  lemma DistinctTail(bs: seq<Bid>)
    requires BidIdsDistinct(bs) && bs != []
    ensures BidIdsDistinct(bs[1..])
    ensures forall i :: 1 <= i < |bs| ==> bs[i].id != bs[0].id
  {
    forall i, j | 0 <= i < j < |bs[1..]|
      ensures bs[1..][i].id != bs[1..][j].id
    {
      assert bs[1..][i] == bs[i + 1] && bs[1..][j] == bs[j + 1];
    }
  }

  /** A delete keeps the ids of the remaining documents distinct. */
  lemma {:induction false} WithoutBidDistinct(bs: seq<Bid>, id: string)
    requires BidIdsDistinct(bs)
    ensures BidIdsDistinct(WithoutBid(bs, id))
  {
    if bs != [] {
      DistinctTail(bs);
      WithoutBidDistinct(bs[1..], id);
      var rest := WithoutBid(bs[1..], id);
      if bs[0].id != id {
        WithoutBidMembers(bs[1..], id);
        forall j | 0 <= j < |rest|
          ensures rest[j].id != bs[0].id
        {
          assert rest[j] in bs[1..];
          var k :| 0 <= k < |bs[1..]| && bs[1..][k] == rest[j];
          assert bs[k + 1] == rest[j];
        }
        var r := WithoutBid(bs, id);
        assert r == [bs[0]] + rest;
        forall i, j | 0 <= i < j < |r|
          ensures r[i].id != r[j].id
        {
          if i > 0 {
            assert r[i] == rest[i - 1];
          }
          assert r[j] == rest[j - 1];
        }
      }
    }
  }

  /** Deleting removes exactly the one document with that id; the others keep their order. */
  lemma {:induction false} WithoutBidAt(bs: seq<Bid>, k: nat)
    requires BidIdsDistinct(bs)
    requires k < |bs|
    ensures WithoutBid(bs, bs[k].id) == bs[..k] + bs[k + 1..]
  {
    var id := bs[k].id;
    DistinctTail(bs);
    if k == 0 {
      WithoutBidAbsent(bs[1..], id);
    } else {
      assert bs[k] == bs[1..][k - 1];
      WithoutBidAt(bs[1..], k - 1);
      assert bs[..k] == [bs[0]] + bs[1..][..k - 1];
      assert bs[k + 1..] == bs[1..][k - 1 + 1..];
    }
  }

  /** Deleting an id that no document has changes nothing. */
  lemma {:induction false} WithoutBidAbsent(bs: seq<Bid>, id: string)
    requires forall i :: 0 <= i < |bs| ==> bs[i].id != id
    ensures WithoutBid(bs, id) == bs
  {
    if bs != [] {
      WithoutBidAbsent(bs[1..], id);
      assert [bs[0]] + bs[1..] == bs;
    }
  }

  /** `updateDoc(product, { imageUrl })`: the image of the product with that id is replaced, nothing else. */
  function WithImage(ps: seq<Product>, id: string, url: string): (r: seq<Product>)
    ensures |r| == |ps|
    ensures forall i :: 0 <= i < |ps| ==>
      r[i] == if ps[i].id == id then ps[i].(imageUrl := Some(url)) else ps[i]
  {
    if ps == [] then []
    else [if ps[0].id == id then ps[0].(imageUrl := Some(url)) else ps[0]] + WithImage(ps[1..], id, url)
  }

  /** A status update as the store's update trigger sees it: the document before and after. */
  datatype Change = Change(before: Bid, after: Bid)

  class Database {
    var products: seq<Product>
    var bids: seq<Bid>

    ghost predicate Valid()
      reads this
    {
      ProductIdsDistinct(products) && BidIdsDistinct(bids)
    }

    constructor ()
      ensures Valid()
      ensures products == [] && bids == []
    {
      products := [];
      bids := [];
    }

    /** `addDoc(collection(db, 'bids'), b)`; the store chooses an id no document has. */
    method AddBid(b: Bid)
      requires Valid()
      requires !HasBid(bids, b.id)
      modifies this
      ensures Valid()
      ensures bids == old(bids) + [b]
      ensures products == old(products)
    {
      bids := bids + [b];
    }

    /** `updateDoc(doc(db, 'bids', id), { status })`: fails, changing nothing, when the document does not exist. */
    method UpdateBidStatus(id: string, status: string) returns (change: Option<Change>)
      requires Valid()
      modifies this
      ensures Valid()
      ensures change.Some? <==> HasBid(old(bids), id)
      ensures change.Some? ==>
        change.value.before == FindBid(old(bids), id).value &&
        change.value.after == change.value.before.(status := status)
      ensures bids == WithStatus(old(bids), id, status)
      ensures products == old(products)
    {
      var found := FindBid(bids, id);
      bids := WithStatus(bids, id, status);
      if found.Some? {
        change := Some(Change(found.value, found.value.(status := status)));
      } else {
        change := None;
      }
    }

    /** `deleteDoc(doc(db, 'bids', id))`: returns the deleted document, which the delete trigger receives. */
    method DeleteBid(id: string) returns (deleted: Option<Bid>)
      requires Valid()
      modifies this
      ensures Valid()
      ensures deleted == FindBid(old(bids), id)
      ensures bids == WithoutBid(old(bids), id)
      ensures products == old(products)
    {
      deleted := FindBid(bids, id);
      bids := WithoutBid(bids, id);
      WithoutBidDistinct(old(bids), id);
    }

    /** A committed batch that deletes every product document. */
    method ClearProducts()
      requires Valid()
      modifies this
      ensures Valid()
      ensures products == []
      ensures bids == old(bids)
    {
      products := [];
    }

    /** `addDoc(collection(db, 'products'), p)`; the store chooses an id no document has. */
    method AddProduct(p: Product)
      requires Valid()
      requires !HasProduct(products, p.id)
      modifies this
      ensures Valid()
      ensures products == old(products) + [p]
      ensures bids == old(bids)
    {
      products := products + [p];
    }

    /** `updateDoc(doc(db, 'products', id), { imageUrl })`: fails, changing nothing, when the product does not exist. */
    method SetProductImage(id: string, url: string) returns (ok: bool)
      requires Valid()
      modifies this
      ensures Valid()
      ensures ok == HasProduct(old(products), id)
      ensures products == WithImage(old(products), id, url)
      ensures bids == old(bids)
    {
      ok := exists i :: 0 <= i < |products| && products[i].id == id;
      products := WithImage(products, id, url);
    }
  }
}

=== FILE: strings.dfy ===
/**
 * String operations the portal relies on: a lexicographic order on
 * characters standing in for the orders JavaScript's `sort` and
 * `localeCompare` use, `split` on one separator character,
 * `replace` of the first occurrence of a literal pattern, and upper-casing
 * the first letter of a word.
 */
module Strings {

  /** Strict lexicographic order by code point; the model's stand-in for the string order of `sort` and `localeCompare`. */
  predicate Less(a: string, b: string)
  {
    if |a| == 0 then |b| > 0
    else if |b| == 0 then false
    else if a[0] == b[0] then Less(a[1..], b[1..])
    else a[0] < b[0]
  }

  predicate LessEq(a: string, b: string)
  {
    Less(a, b) || a == b
  }

  lemma {:induction false} LessIrreflexive(a: string)
    ensures !Less(a, a)
  {
    if |a| > 0 {
      LessIrreflexive(a[1..]);
    }
  }

  lemma {:induction false} LessTransitive(a: string, b: string, c: string)
    requires Less(a, b) && Less(b, c)
    ensures Less(a, c)
  {
    if |a| > 0 && |b| > 0 && |c| > 0 && a[0] == b[0] && b[0] == c[0] {
      LessTransitive(a[1..], b[1..], c[1..]);
    }
  }

  lemma {:induction false} LessTrichotomy(a: string, b: string)
    ensures Less(a, b) || a == b || Less(b, a)
  {
    if |a| > 0 && |b| > 0 && a[0] == b[0] {
      LessTrichotomy(a[1..], b[1..]);
      if a[1..] == b[1..] {
        assert a == [a[0]] + a[1..] && b == [b[0]] + b[1..];
      }
    }
  }

  lemma {:induction false} LessAsymmetric(a: string, b: string)
    requires Less(a, b)
    ensures !Less(b, a)
  {
    if Less(b, a) {
      LessTransitive(a, b, a);
      LessIrreflexive(a);
    }
  }

  lemma LessEqTransitive(a: string, b: string, c: string)
    requires LessEq(a, b) && LessEq(b, c)
    ensures LessEq(a, c)
  {
    if Less(a, b) && Less(b, c) {
      LessTransitive(a, b, c);
    }
  }

  /** `!Less(b, a)` is the same as `LessEq(a, b)`: the order is total. */
  lemma NotLessIsLessEq(a: string, b: string)
    ensures !Less(b, a) <==> LessEq(a, b)
  {
    LessTrichotomy(a, b);
    if Less(a, b) {
      LessAsymmetric(a, b);
    }
    if a == b {
      LessIrreflexive(a);
    }
  }

  // ---------------------------------------------------------------------------
  // split

  /** The parts of `s` between occurrences of `sep`, as `s.split(sep)` returns them. */
  function Split(s: string, sep: char): (parts: seq<string>)
    ensures |parts| >= 1
    ensures |parts| == 1 <==> Free(s, sep)
  {
    if s == [] then [""]
    else
      var rest := Split(s[1..], sep);
      assert Free(s, sep) <==> s[0] != sep && Free(s[1..], sep) by {
        if s[0] != sep && Free(s[1..], sep) {
          forall i | 1 <= i < |s|
            ensures s[i] != sep
          {
            assert s[i] == s[1..][i - 1];
          }
        }
      }
      if s[0] == sep then [""] + rest else [[s[0]] + rest[0]] + rest[1..]
  }

  /** The inverse of `Split`: the parts glued together with `sep` between them. */
  function Join(parts: seq<string>, sep: char): string
    requires |parts| >= 1
  {
    if |parts| == 1 then parts[0] else parts[0] + [sep] + Join(parts[1..], sep)
  }

  predicate Free(s: string, c: char)
  {
    forall i :: 0 <= i < |s| ==> s[i] != c
  }

  /** Splitting loses nothing: joining the parts gives back the string, and no part holds the separator. */
  lemma {:induction false} JoinSplit(s: string, sep: char)
    ensures Join(Split(s, sep), sep) == s
    ensures forall k :: 0 <= k < |Split(s, sep)| ==> Free(Split(s, sep)[k], sep)
  {
    if s != [] {
      var rest := Split(s[1..], sep);
      JoinSplit(s[1..], sep);
      if s[0] == sep {
        assert Split(s, sep) == [""] + rest;
        assert Split(s, sep)[1..] == rest;
        assert s == [] + [sep] + s[1..];
      } else {
        var parts := Split(s, sep);
        assert parts == [[s[0]] + rest[0]] + rest[1..];
        assert parts[1..] == rest[1..];
        if |rest| == 1 {
          assert s == [s[0]] + rest[0];
        } else {
          assert Join(rest, sep) == rest[0] + [sep] + Join(rest[1..], sep);
          assert s == ([s[0]] + rest[0]) + [sep] + Join(parts[1..], sep);
        }
        forall k | 0 <= k < |parts|
          ensures Free(parts[k], sep)
        {
          if k > 0 {
            assert parts[k] == rest[k];
          }
        }
      }
    }
  }

  /** Splitting a string built by `Join` from separator-free parts gives the parts back. */
  lemma {:induction false} SplitJoin(parts: seq<string>, sep: char)
    requires |parts| >= 1
    requires forall k :: 0 <= k < |parts| ==> Free(parts[k], sep)
    ensures Split(Join(parts, sep), sep) == parts
  {
    if |parts| == 1 {
      SplitFree(parts[0], sep);
    } else {
      SplitJoin(parts[1..], sep);
      SplitPrefix(parts[0], Join(parts[1..], sep), sep);
      assert Join(parts, sep) == parts[0] + ([sep] + Join(parts[1..], sep));
      assert [parts[0]] + parts[1..] == parts;
    }
  }

  lemma {:induction false} SplitFree(s: string, sep: char)
    requires Free(s, sep)
    ensures Split(s, sep) == [s]
  {
    if s != [] {
      SplitFree(s[1..], sep);
      assert [s[0]] + s[1..] == s;
    }
  }

  /** A separator-free head becomes the first part; what follows the first separator is split on its own. */
  lemma {:induction false} SplitPrefix(head: string, tail: string, sep: char)
    requires Free(head, sep)
    ensures Split(head + [sep] + tail, sep) == [head] + Split(tail, sep)
  {
    var s := head + [sep] + tail;
    if head == [] {
      assert s[1..] == tail;
    } else {
      assert s[1..] == head[1..] + [sep] + tail;
      SplitPrefix(head[1..], tail, sep);
      assert [head[0]] + head[1..] == head;
    }
  }

  // ---------------------------------------------------------------------------
  // replace

  predicate OccursAt(s: string, pat: string, i: nat)
  {
    i + |pat| <= |s| && s[i..i + |pat|] == pat
  }

  /** `s.replace(pat, rep)` with a string pattern: only the first occurrence is replaced. */
  function ReplaceFirst(s: string, pat: string, rep: string): (r: string)
    ensures r == s || |r| == |s| - |pat| + |rep|
  {
    if OccursAt(s, pat, 0) then rep + s[|pat|..]
    else if s == [] then s
    else [s[0]] + ReplaceFirst(s[1..], pat, rep)
  }

  /** Dropping the first character shifts every occurrence one place to the left. */
  lemma OccursShift(s: string, pat: string, j: nat)
    requires s != []
    ensures OccursAt(s[1..], pat, j) <==> OccursAt(s, pat, j + 1)
  {
    if j + |pat| <= |s[1..]| {
      assert s[1..][j..j + |pat|] == s[j + 1..j + 1 + |pat|];
    }
  }

  /** Without an occurrence at the front, `ReplaceFirst` keeps the first character and works on the rest. */
  lemma ReplaceFirstStep(s: string, pat: string, rep: string)
    requires s != [] && !OccursAt(s, pat, 0)
    ensures ReplaceFirst(s, pat, rep) == [s[0]] + ReplaceFirst(s[1..], pat, rep)
  {
  }

  /** What `ReplaceFirst` does: at the first occurrence `i` it splices in `rep`; with no occurrence it changes nothing. */
  lemma {:induction false} ReplaceFirstAt(s: string, pat: string, rep: string, i: nat)
    requires OccursAt(s, pat, i)
    requires forall j :: 0 <= j < i ==> !OccursAt(s, pat, j)
    ensures ReplaceFirst(s, pat, rep) == s[..i] + rep + s[i + |pat|..]
  {
    if i > 0 {
      var t := s[1..];
      forall j | 0 <= j < i - 1
        ensures !OccursAt(t, pat, j)
      {
        OccursShift(s, pat, j);
      }
      OccursShift(s, pat, i - 1);
      ReplaceFirstAt(t, pat, rep, i - 1);
      ReplaceFirstStep(s, pat, rep);
      assert s[..i] == [s[0]] + t[..i - 1];
      assert t[i - 1 + |pat|..] == s[i + |pat|..];
    }
  }

  lemma {:induction false} ReplaceFirstAbsent(s: string, pat: string, rep: string)
    requires forall j :: 0 <= j <= |s| ==> !OccursAt(s, pat, j)
    ensures ReplaceFirst(s, pat, rep) == s
  {
    if s != [] {
      forall j | 0 <= j <= |s[1..]|
        ensures !OccursAt(s[1..], pat, j)
      {
        OccursShift(s, pat, j);
      }
      ReplaceFirstAbsent(s[1..], pat, rep);
      ReplaceFirstStep(s, pat, rep);
      assert [s[0]] + s[1..] == s;
    }
  }

  // ---------------------------------------------------------------------------
  // upper-casing the first letter

  /** `toUpperCase` on one character, for the ASCII letters. */
  function UpperChar(c: char): char
  {
    if 'a' <= c <= 'z' then (c as int - 32) as char else c
  }

  function LowerChar(c: char): char
  {
    if 'A' <= c <= 'Z' then (c as int + 32) as char else c
  }

  /** `s.charAt(0).toUpperCase() + s.slice(1)`. */
  function Capitalize(s: string): (r: string)
    ensures |r| == |s|
    ensures forall i :: 0 < i < |s| ==> r[i] == s[i]
    ensures s != [] && 'a' <= s[0] <= 'z' ==> 'A' <= r[0] <= 'Z' && LowerChar(r[0]) == s[0]
    ensures s != [] && !('a' <= s[0] <= 'z') ==> r[0] == s[0]
  {
    if s == [] then [] else [UpperChar(s[0])] + s[1..]
  }

  /** Capitalizing touches only the first character, and lower-casing that character undoes it for a word that starts in lower case. */
  lemma CapitalizeInverse(s: string)
    requires s != [] ==> ('a' <= s[0] <= 'z' || !('A' <= s[0] <= 'Z'))
    ensures s != [] ==> Capitalize(s)[1..] == s[1..]
    ensures s != [] ==> [LowerChar(Capitalize(s)[0])] + Capitalize(s)[1..] == s
  {
    if s != [] {
      assert [s[0]] + s[1..] == s;
    }
  }
}

=== FILE: wrappers.dfy ===
/** The optional value used wherever a field, a document or a signed-in user may be absent. */
module Wrappers {
  datatype Option<+T> = None | Some(value: T)
}
